=== FILE: README.md ===
# ember-data-background-adapters, modelled in Dafny

This project models the core of `@dadleyy/ember-data-background-adapter`.
The addon lets other Ember addons ship JavaScript that runs in a Web Worker.
The model covers three parts.

- **The build (`index.js`).**
  - `keywords` picks the plugin addons.
  - `postprocessTree` assembles the plugin list (project addons, this addon, the project, and the dummy app when building it). It keeps the plugins that carry `workers/background-adapters/index.js`. It stages each one under `workers/background-adapters/<name>` and writes an entry module with one `import "<name>";` line per plugin.
  - `config` gives the worker's URL.
- **The resolver hook** handed to the bundler (`resolver().resolveId`, `sideload`, `seek`).
  - It fixes the build's workspace on the first call.
  - It resolves an import to a plugin's entry module, to a file in the importer's plugin namespace, or to a package found from the plugin's root.
  - It records who owns each such package, and it resolves the imports of an already-resolved package from that package's own directory.
- **The runtime service (`addon/services/adapter-workers.js`).**
  - `chunk(url)` boots a fresh worker and posts it the configuration.
  - It takes the first message back as the handshake, posts the URL, and terminates the worker on the first reply.
  - `WorkerProxy` forwards to the worker.

Modules and files:

| file | module | contents |
|---|---|---|
| wrappers.dfy | Wrappers | `Option` |
| strings.dfy | Strings | splitting on and joining with one character, and their round trips |
| paths.dfy | Paths | paths as segment lists, `path.join` as a normaliser, `dirname`, `relative` |
| resolver.dfy | Resolver | `seek`, one pass of the hook's plugin loop (`Visit`), the loop (`Walk`), `sideload`, `resolveId` |
| resolver_props.dfy | ResolverProps | what each branch of the loop does, repeated calls, a whole build's calls |
| registry.dfy | Registry | `keywords`, the plugin list, `config` |
| aggregator.dfy | Aggregator | contributing plugins, staging, the entry module, `postprocessTree` |
| session.dfy | Session | workers, `WorkerProxy`, `initialize`, `chunk` and message delivery as a state machine |
| session_props.dfy | SessionProps | the invariant of a sequence of calls and messages |

Modelling choices:

- **Paths** are absolute, normalised lists of segments. `path.join` and `path.resolve` become `Normalize`: empty and `.` segments are dropped, `..` pops a segment, and `..` at the root stays at the root.
- **The file system** is a set of paths, so `exists` and `glob.sync('index.js')` are membership tests.
- **`resolve.sync`** (Node module resolution from a base directory) is an uninterpreted parameter `Lookup`, fixed for a whole build.
- **Resolver state.** The hook's closure state (`env.resolutions`, `env.locations`) is an explicit `Env` value threaded from call to call.
- **First match.** The hook's loop stops at the first plugin that decides (index.js:174-216). So an import by plugin name does not always resolve to that plugin's entry module: an earlier plugin's namespace file, table row or lookup wins.
- **Workers** are observed only through their listeners, the messages posted to them and whether they were terminated. Their replies are input events.

## Model

| member | source | states |
|---|---|---|
| Registry.IsPluginIff | index.js:148-151 | called with one argument, `keywords` holds exactly when the addon has package metadata whose keyword list contains `ember-data-background-adapter-plugin` |
| Registry.IndexOfFirst | index.js:150 | `indexOf` gives -1 exactly when the keyword is absent, and otherwise gives its first position |
| Registry.AsWrittenSelectsOnlyFirst | index.js:67 | as written, no addon after the first can be selected |
| Registry.SecondPluginDropped | index.js:67 | a plugin addon in second place is dropped as written but kept by the intended filter |
| Registry.FilterPlugins | index.js:67 | the intended filter keeps exactly the plugin addons |
| Registry.FilterPluginsAppend | index.js:67 | the intended filter keeps the addons' order |
| Registry.AsWrittenIsFirstOnly | index.js:67 | the filter as written keeps the first addon when it is a plugin and drops every later addon |
| Registry.AsWrittenListUsesFirstAddon | index.js:67-76 | the plugin list as the code builds it equals the intended plugin list built from the first project addon alone |
| Registry.PluginList | index.js:67-76 | with the intended filter, the plugin addons (none when the project has no addon list) come first, then this addon, then the project; the dummy app, named `<project>-dummy` and rooted one level above the app tree, comes last and only when the app is called `dummy` |
| Registry.WorkerLocation | index.js:37-43 | the worker URL is the normalised root URL followed by `workers/background-adapters/worker.js`, with a leading `/` exactly when the root URL has one |
| Registry.WorkerLocationBelowRoot | index.js:37-43 | below a root URL `/a/b` the worker is at `/a/b/workers/background-adapters/worker.js` |
| Registry.DefaultWorkerLocation | index.js:37-43 | with root URL `/` the worker is at `/workers/background-adapters/worker.js` |
| Paths.WorkersLocationText | index.js:20 | the worker directory, kept in the model as the two segments `workers` and `background-adapters`, is the text `workers/background-adapters` |
| Paths.JoinWorkersLocation | index.js:88 | joining any directory with the worker directory appends those two segments |
| Paths.Relative | index.js:171-172 | `path.relative` from the worker directory is defined exactly for paths below it, which are the directory followed by the result |
| Paths.Dirname | index.js:162 | `path.dirname` drops exactly the last segment |
| Paths.JoinPath | index.js:166-176 | joining onto a normalised directory gives a normalised path |
| Strings.SplitJoin | index.js:172 | splitting the join of separator-free pieces gives the pieces back |
| Strings.JoinSplit | index.js:110 | joining the pieces of a split gives the string back |
| Aggregator.GlobIndex | index.js:89 | the glob finds at most one `index.js`, and finds one exactly when the directory holds that file |
| Aggregator.Contributors | index.js:86-95 | the contributors are exactly the plugins that contribute |
| Aggregator.ContributesIff | index.js:88-95 | a plugin contributes exactly when `<root>/workers/background-adapters/index.js` exists |
| Aggregator.ContributorsAppend | index.js:86-95 | contributors keep the plugin-list order |
| Aggregator.StagePlugins | index.js:86-106 | the loop produces one staging entry and one import line per contributor, in plugin order, and none for other plugins |
| Aggregator.StagedStep | index.js:86-105 | one iteration adds an entry and an import line exactly when the plugin contributes |
| Aggregator.StageOne | index.js:87-105 | one turn of the loop stages the plugin and adds its import line exactly when the plugin contributes, and otherwise changes nothing |
| Aggregator.EntryRoundTrip | index.js:104-110 | reading the names back from the generated entry module's lines gives the contributors' names in order |
| Aggregator.StagedWhereResolverLooks | index.js:176-177 | a plugin's sources are staged in the namespace where the resolver looks for them, and the plugin's entry module is that namespace's `index.js` |
| Aggregator.DestinationsDistinct | index.js:98 | two plugins with different well-formed names are staged in different directories |
| Aggregator.PostprocessTree | index.js:59-138 | the application comes back alone exactly when the tree is not `all` or the addon is disabled; otherwise the build stages the contributors of the plugin list (built with the intended filter) and writes the entry module at `workers/background-adapters/index.js`, and the minify setting chooses the minified unbundled tree over the bundle |
| Resolver.Seek | index.js:243-253 | `seek` returns the nearest strict ancestor directory that holds the needle; null means no strict ancestor does |
| Resolver.Walk | index.js:174-216 | when the loop answers with a path, that path exists or is the importee's recorded location; it records a new owner only for an importee with no row, and only a plugin whose root lookup found the location |
| Resolver.Sideload | index.js:223-241 | the sideload succeeds exactly when some row is located at the importer and the lookup from the importer's directory succeeds; it then records an owner-less row, and otherwise leaves the table alone |
| Resolver.ResolveId | index.js:157-219 | a name with a NUL or a missing importer gives null; the call fails exactly when no workspace is set and `seek` finds none; a call that neither returns null early nor fails leaves a workspace set; the first call sets the one `seek` found and later calls never change it; no row is lost or handed to another owner; a resolved path exists or is the importee's recorded location |
| ResolverProps.WalkPastSkips | index.js:174-216 | plugins the loop passes over do not influence its outcome |
| ResolverProps.FirstStop | index.js:174-216 | an answer of the loop comes from the first plugin that does not pass |
| ResolverProps.WalkIgnoresTable | index.js:184-195 | outside every namespace the loop never reads the ownership table |
| ResolverProps.StopsAt | index.js:174-218 | once the loop reaches a plugin that decides, that decision is the call's result |
| Resolver.IndexFileIsJoin | index.js:177 | a plugin's entry module, its namespace followed by `index.js`, is `path.join(<namespace>, 'index.js')` |
| ResolverProps.NameImportResolves | index.js:177-182 | importing a reached plugin by name resolves to its staged `index.js` when that exists |
| ResolverProps.NamespaceFileResolves | index.js:184-192 | inside a reached plugin's namespace, `<namespace>/<importee>.js` wins when it exists |
| ResolverProps.ConflictYieldsNull | index.js:195-200 | an importee owned by another plugin gives null and changes nothing |
| ResolverProps.SameOwnerReuses | index.js:202-204 | an importee already owned by the same plugin reuses its recorded location |
| ResolverProps.FirstLookupRecords | index.js:206-215 | the first successful lookup from the plugin's root records that plugin as owner and returns the location |
| ResolverProps.FailedLookupMovesOn | index.js:206-211 | a failed lookup makes the call behave as if that plugin were not in the list |
| ResolverProps.WalkWithout | index.js:174-216 | dropping a plugin that the loop, and every plugin before it, passes over leaves the loop's outcome unchanged |
| ResolverProps.SideloadWhenLoopPasses | index.js:218 | when the loop passes over every plugin, the result is the sideload's |
| ResolverProps.InNamespaceIffBelow | index.js:184 | for well-formed names, an importer is in a plugin's namespace exactly when it lies strictly below `<workers>/<name>` |
| ResolverProps.EntryImportResolves | index.js:177-182 | each `import "<name>"` of the generated entry module resolves to the first such plugin's staged `index.js` |
| ResolverProps.FirstCallFixesWorkspace | index.js:162-169 | the first call, from the entry module, fixes the workspace to the directory that holds the worker directory |
| ResolverProps.RepeatInNamespace | index.js:195-215 | from inside the namespace of one plugin name (several plugins may share it), with no row located at the importer, repeating a call returns the same answer and changes nothing |
| ResolverProps.BindingIsReused | index.js:195-215 | once the loop records an owner from inside the namespace of one plugin name (several plugins may share it), the same loop over the updated table answers with the recorded location |
| ResolverProps.RepeatOutsideNamespaces | index.js:218-241 | from outside every namespace, repeating a call returns the same answer and changes nothing, unless the importee's own row is located at the importer |
| ResolverProps.TransitiveDependencyResolves | index.js:206-237 | a package resolved from a plugin's root can itself import a package, which resolves from its directory and is recorded without an owner |
| ResolverProps.WorkspaceFixed | index.js:163-169 | across a whole build the workspace, once set, never changes |
| ResolverProps.OwnerNeverRebound | index.js:195-235 | across a whole build, a row owned by a plugin is never handed to another owner |
| ResolverProps.SideloadOrderIrrelevant | index.js:224-240 | the sideload as written, scanning rows in insertion order, agrees with the order-free statement |
| Session.Forward | addon/services/adapter-workers.js:59-79 | each `WorkerProxy` method performs the matching worker operation on its own worker and touches no other worker |
| Session.OffUndoesOn | addon/services/adapter-workers.js:65-73 | `off` after `on` of a listener not yet registered restores the worker |
| Session.Initialize | addon/services/adapter-workers.js:9-24 | `initialize` creates one new worker on the configured URL, with the handshake listener and the configuration as its only message |
| Session.Dispatch | addon/services/adapter-workers.js:38-52 | after a handle is obtained, the reply listener is added and the URL posted to that worker only, and the cache ends empty |
| Session.Chunk | addon/services/adapter-workers.js:36-55 | with nothing cached, a call boots a new worker and waits for its handshake; the cache is empty afterwards |
| Session.Deliver | addon/services/adapter-workers.js:15-48 | the handshake makes the service post the URL to the same worker; the reply removes the listener, terminates the worker and settles the call; a message from any other worker changes nothing |
| Session.Handshake | addon/services/adapter-workers.js:15-19 | the handshake listener removes itself, the id it received goes into the handle, and the URL is posted to the same worker, which then waits for the reply |
| Session.Settle | addon/services/adapter-workers.js:44-48 | the reply listener removes itself, terminates the worker and settles the request, and no other worker changes |
| SessionProps.StepKeepsInv | addon/services/adapter-workers.js:9-55 | each call or message keeps the session invariant, and exactly a call adds a worker |
| SessionProps.RunKeepsInv | addon/services/adapter-workers.js:9-55 | any sequence of sequential calls and messages keeps the invariant, and each call adds one worker |
| SessionProps.CallKeepsInv | addon/services/adapter-workers.js:36-42 | a call from an idle service keeps the invariant and adds exactly one worker |
| SessionProps.HandshakeKeepsInv | addon/services/adapter-workers.js:15-52 | the handshake keeps the invariant |
| SessionProps.SettleKeepsInv | addon/services/adapter-workers.js:44-48 | settling keeps the invariant |
| SessionProps.OneWorkerPerCall | addon/services/adapter-workers.js:38-52 | from a fresh service there are as many workers as calls; when nothing is in flight, every call has settled and every worker is terminated |
| SessionProps.RequestLifecycle | addon/services/adapter-workers.js:9-55 | one request boots a worker, sends it the configuration and then the URL, terminates it on the reply, settles once, and ignores a later message from it |

## Left out

- Broccoli plumbing is not modelled, because it produces trees, not values. This covers `Funnel`, `Babel`, `Rollup` and `commonjs`, the merge and `broccoli-file-creator`. The model states which staging entries, entry text and artifact the build produces.
- Debug logging, `included` and `serverMiddleware` are not modelled. They have no effect on the results.
- Merge conflicts are not modelled. The merge uses `overwrite: true` (index.js:113), so conflicting staged files are not an error.
- Resolver.ResolveId: a throwing `resolve.sync` is not modelled. The lookup only succeeds or fails; `|| null` turns any falsy result into a failure.
- Resolver.ResolveId: the throw from `path.join(null, ...)` is the `Failed` answer.
- Paths.Relative: an importer outside the worker directory has no relative path, so it is in no namespace. The source's `..`-prefixed relative path for such an importer never equals a well-formed plugin name.
- ResolverProps.InNamespaceIffBelow: the equivalence is proved only for well-formed plugin names. These are names with no empty, `.` or `..` segment.
- Registry.PluginList: the list is built with the intended filter, not the one at index.js:67. As written, at most the first project addon can be selected (`Registry.AsWrittenSelectsOnlyFirst`), and `Registry.AsWrittenListUsesFirstAddon` states the as-written list.
- Registry.PluginList: every addon on the list must have package metadata, and the source reads `pkg.name` without a check. A package without a name is not modelled.
- Registry.IsPluginIff: a `keywords` field that is a string rather than a list is not modelled.
- Aggregator.PostprocessTree: the minify flag is an input. The source reads it as `dig(this.app, 'options.minifyJS')` (index.js:129), while `included` passes the keys separately (index.js:31). If `object-dig` treats the string as one property name, the flag is always unset and the minify branch cannot be reached. `object-dig` is not part of this model, so both values of the flag are allowed.
- Aggregator.PostprocessTree: the plugin list is `Registry.PluginList`, built with the intended filter. As written, `addons.filter(keywords)` can select at most the first project addon (`Registry.AsWrittenSelectsOnlyFirst`); that list is `Registry.PluginListAsWritten` (see Findings).
- Aggregator.PostprocessTree: the minify branch returns the transpiled tree, not the bundle. This is modelled as the `MinifiedUnbundled` artifact.
- Session.Chunk: concurrent calls are not modelled. A call while a request is in flight is outside the model, and `Step` returns None for it.
- Ember dependency injection and the `config` computed property are not modelled. The configuration is a value.
- The `{ }` promise that a settled request resolves to is not modelled; a settled count stands for it.
- `ember-cli-build.js`, the dummy app and the example workers under `workers/` are not part of this model.
- Resolver.ResolveId: `dig(env, 'locations.workspace')` (index.js:163) is modelled as reading the recorded workspace. If `object-dig` treats the string as one property name, `seek` runs on every call. Its result is used only while no workspace is set, so the outcome is the same.

## Findings

| source | as written | input that shows it | evidently intended | confidence | as-written member | corrected member |
|---|---|---|---|---|---|---|
| index.js:67 | `addons.filter(keywords)` passes each addon's index as the `keyword` argument. From the second addon on, the keyword is a number that no keyword list contains. | The addons `[a, b]` where only `b` lists `ember-data-background-adapter-plugin`: `b` is not selected. | Every addon whose keywords include the plugin keyword is selected. | not executed | Registry.AsWrittenSelectsOnlyFirst | Registry.FilterPlugins |

=== FILE: aggregator.dfy ===
/**
  Aggregation of the plugins' worker sources: which plugins contribute, where
  each contributor's sources are staged, and the synthesized entry module that
  imports every contributor, in plugin-list order.
 */
module Aggregator {

  import opened Wrappers
  import opened Strings
  import opened Paths
  import opened Resolver
  import opened Registry

  /** `glob.sync('index.js', { cwd })`: the matches of the literal pattern. */
  function GlobIndex(fs: set<Path>, cwd: Path): (matches: seq<string>)
    ensures |matches| <= 1
    ensures |matches| == 1 <==> cwd + ["index.js"] in fs
  {
    if cwd + ["index.js"] in fs then ["index.js"] else []
  }

  /** `path.resolve(plugin.root, WORKERS_LOCATION)`: a plugin's worker directory. */
  function SourceDir(p: Plugin): (dir: Path)
    ensures dir == JoinPath(p.root, WorkersLocation)
  {
    JoinWorkersLocation(p.root);
    p.root + WorkersDir
  }

  /** A plugin contributes worker sources when exactly one `index.js` is found
      in its worker directory. */
  predicate Contributes(fs: set<Path>, p: Plugin) {
    |GlobIndex(fs, SourceDir(p))| == 1
  }

  /** A plugin contributes exactly when its root holds `workers/background-adapters/index.js`. */
  lemma ContributesIff(fs: set<Path>, p: Plugin)
    ensures Contributes(fs, p) <==> p.root + WorkersDir + ["index.js"] in fs
  {
    assert SourceDir(p) == p.root + WorkersDir;
  }

  /** The contributors among `plugins`, in plugin-list order. */
  function Contributors(fs: set<Path>, plugins: seq<Plugin>): (r: seq<Plugin>)
    ensures forall p :: p in r <==> p in plugins && Contributes(fs, p)
    ensures |r| <= |plugins|
    decreases |plugins|
  {
    if |plugins| == 0 then []
    else (if Contributes(fs, plugins[0]) then [plugins[0]] else []) + Contributors(fs, plugins[1..])
  }

  /** Selecting contributors keeps the order of a concatenation. */
  lemma {:induction false} ContributorsAppend(fs: set<Path>, xs: seq<Plugin>, ys: seq<Plugin>)
    ensures Contributors(fs, xs + ys) == Contributors(fs, xs) + Contributors(fs, ys)
    decreases |xs|
  {
    if |xs| == 0 {
      assert xs + ys == ys;
    } else {
      assert (xs + ys)[0] == xs[0];
      assert (xs + ys)[1..] == xs[1..] + ys;
      ContributorsAppend(fs, xs[1..], ys);
      Assoc(if Contributes(fs, xs[0]) then [xs[0]] else [], Contributors(fs, xs[1..]), Contributors(fs, ys));
    }
  }

  /** Where a contributor's worker directory is copied, relative to the staging root. */
  datatype StagingEntry = StagingEntry(name: string, source: Path, dest: seq<string>)

  /** `path.join(WORKERS_LOCATION, name)`. */
  function StagingDest(name: string): seq<string> {
    Normalize(WorkersDir, Split(name, '/'), false)
  }

  function EntryOf(p: Plugin): StagingEntry {
    StagingEntry(p.name, SourceDir(p), StagingDest(p.name))
  }

  /** The line the entry module holds for a contributor. */
  function ImportLine(name: string): string {
    "import \"" + name + "\";"
  }

  /** The path of the synthesized entry module, relative to the staging root. */
  const EntryPath: seq<string> := WorkersDir + ["index.js"]

  /** The text of the entry module: the import lines joined with newlines. */
  function EntryText(imports: seq<string>): string {
    Join(imports, '\n')
  }

  /** The plugin loop of `postprocessTree`: one staging entry and one import
      line per contributor, in plugin-list order. */
  method StagePlugins(fs: set<Path>, plugins: seq<Plugin>) returns (entries: seq<StagingEntry>, imports: seq<string>)
    ensures var cs := Contributors(fs, plugins);
            && |entries| == |cs| && |imports| == |cs|
            && (forall k :: 0 <= k < |cs| ==> entries[k] == EntryOf(cs[k]))
            && (forall k :: 0 <= k < |cs| ==> imports[k] == ImportLine(cs[k].name))
  {
    entries, imports := [], [];
    var i := 0;
    while i < |plugins|
      invariant 0 <= i <= |plugins|
      invariant Staged(Contributors(fs, plugins[..i]), entries, imports)
    {
      StagedStep(fs, plugins, i, entries, imports);
      entries, imports := StageOne(fs, plugins[i], entries, imports);
      i := i + 1;
    }
    assert plugins[..i] == plugins;
  }

  /** One turn of the plugin loop: a plugin whose worker directory holds
      exactly one `index.js` gets a staging entry and an import line. */
  method StageOne(fs: set<Path>, plugin: Plugin, entries: seq<StagingEntry>, imports: seq<string>)
    returns (entries': seq<StagingEntry>, imports': seq<string>)
    ensures Contributes(fs, plugin) ==> entries' == entries + [EntryOf(plugin)] && imports' == imports + [ImportLine(plugin.name)]
    ensures !Contributes(fs, plugin) ==> entries' == entries && imports' == imports
  {
    var index := GlobIndex(fs, SourceDir(plugin));
    if |index| != 1 {
      return entries, imports;
    }
    entries' := entries + [EntryOf(plugin)];
    imports' := imports + [ImportLine(plugin.name)];
  }

  /** `entries` and `imports` hold one staging entry and one import line per
      contributor in `cs`, in order. */
  predicate Staged(cs: seq<Plugin>, entries: seq<StagingEntry>, imports: seq<string>) {
    && |entries| == |cs| && |imports| == |cs|
    && (forall k :: 0 <= k < |cs| ==> entries[k] == EntryOf(cs[k]))
    && (forall k :: 0 <= k < |cs| ==> imports[k] == ImportLine(cs[k].name))
  }

  /** One turn of the plugin loop keeps the staged lists in step with the contributors. */
  lemma StagedStep(fs: set<Path>, plugins: seq<Plugin>, i: nat, entries: seq<StagingEntry>, imports: seq<string>)
    requires i < |plugins| && Staged(Contributors(fs, plugins[..i]), entries, imports)
    ensures var p := plugins[i];
            Contributes(fs, p) ==>
              Staged(Contributors(fs, plugins[..i + 1]), entries + [EntryOf(p)], imports + [ImportLine(p.name)])
    ensures !Contributes(fs, plugins[i]) ==> Staged(Contributors(fs, plugins[..i + 1]), entries, imports)
  {
    var done, p := plugins[..i], plugins[i];
    assert plugins[..i + 1] == done + [p];
    ContributorsAppend(fs, done, [p]);
    assert [p][1..] == [];
    if Contributes(fs, p) {
      assert Contributors(fs, [p]) == [p];
      StagedExtend(Contributors(fs, done), p, entries, imports);
    } else {
      assert Contributors(fs, [p]) == [];
      assert Contributors(fs, done) + [] == Contributors(fs, done);
    }
  }

  /** Appending a contributor with its entry and import line keeps the lists in step. */
  lemma StagedExtend(cs: seq<Plugin>, p: Plugin, entries: seq<StagingEntry>, imports: seq<string>)
    requires Staged(cs, entries, imports)
    ensures Staged(cs + [p], entries + [EntryOf(p)], imports + [ImportLine(p.name)])
  {
    var cs', es', is' := cs + [p], entries + [EntryOf(p)], imports + [ImportLine(p.name)];
    forall k | 0 <= k < |cs'| ensures es'[k] == EntryOf(cs'[k]) && is'[k] == ImportLine(cs'[k].name) {
      if k < |cs| {
        assert cs'[k] == cs[k] && es'[k] == entries[k] && is'[k] == imports[k];
      }
    }
  }

  /** Reads the contributor names back out of an entry module's text. */
  function ParseEntry(text: string): seq<string> {
    if text == "" then []
    else
      var lines := Split(text, '\n');
      seq(|lines|, k requires 0 <= k < |lines| => ImportedName(lines[k]))
  }

  /** The name inside `import "<name>";`, or "" for any other line. */
  function ImportedName(line: string): string {
    if |line| >= 10 && line[..8] == "import \"" && line[|line| - 2..] == "\";" then line[8..|line| - 2]
    else ""
  }

  /** The entry module lists exactly the contributors, in order: parsing its
      text gives back their names, provided no name holds a newline. */
  lemma EntryRoundTrip(names: seq<string>)
    requires forall k :: 0 <= k < |names| ==> '\n' !in names[k]
    ensures ParseEntry(EntryText(seq(|names|, k requires 0 <= k < |names| => ImportLine(names[k])))) == names
  {
    var lines := seq(|names|, k requires 0 <= k < |names| => ImportLine(names[k]));
    if |names| > 0 {
      forall k | 0 <= k < |lines| ensures '\n' !in lines[k] && ImportedName(lines[k]) == names[k] {
        var line := lines[k];
        assert line == "import \"" + names[k] + "\";";
        assert line[..8] == "import \"";
        assert line[|line| - 2..] == "\";";
        assert line[8..|line| - 2] == names[k];
      }
      SplitJoin(lines, '\n');
      assert |EntryText(lines)| >= |lines[0]| by {
        if |lines| > 1 {
          assert EntryText(lines) == lines[0] + ['\n'] + Join(lines[1..], '\n');
        }
      }
    }
  }

  /** A staged contributor lands exactly where the resolver looks for it: its
      staged directory is the resolver's namespace, and its `index.js` the
      resolver's entry module for its name. */
  lemma StagedWhereResolverLooks(workspace: Path, name: string)
    requires Canonical(workspace) && PlainName(name)
    ensures workspace + StagingDest(name) == Namespace(workspace + WorkersDir, name)
    ensures workspace + StagingDest(name) + ["index.js"] == IndexFile(workspace + WorkersDir, name)
  {
    StagedBelow(workspace, WorkersDir, Split(name, '/'));
  }

  /** Normalising plain segments below `w` and then prefixing `workspace` is
      normalising them below `workspace + w`. */
  lemma StagedBelow(workspace: Path, w: seq<string>, n: seq<string>)
    requires Canonical(w) && Canonical(n)
    ensures workspace + Normalize(w, n, false) == Normalize(workspace + w, n, true)
  {
    NormalizePlain(w, n, false);
    NormalizePlain(workspace + w, n, true);
  }

  /** Contributors with distinct plain names are staged in distinct directories. */
  lemma DestinationsDistinct(a: string, b: string)
    requires PlainName(a) && PlainName(b) && a != b
    ensures StagingDest(a) != StagingDest(b)
  {
    NormalizePlain(WorkersDir, Split(a, '/'), false);
    NormalizePlain(WorkersDir, Split(b, '/'), false);
    JoinSplit(a, '/');
    JoinSplit(b, '/');
    assert Split(a, '/') == StagingDest(a)[|WorkersDir|..];
    assert Split(b, '/') == StagingDest(b)[|WorkersDir|..];
  }

  /** Which tree ends up as the worker artifact. */
  datatype Artifact =
    | Bundled              // the bundler's single-file output
    | MinifiedUnbundled    // the transpiled, unbundled sources, minified

  /** The result of `postprocessTree`: the application tree alone, or merged
      with the worker build. */
  datatype Output =
    | AppOnly
    | WithWorker(plugins: seq<Plugin>, entries: seq<StagingEntry>, entryPath: seq<string>,
                 entryText: string, artifact: Artifact)

  /** `postprocessTree(type, application)`. `enabled` is the addon option
      `enabled`; `minify` is the app's minification setting. */
  method PostprocessTree(kind: string, enabled: Option<bool>, minify: bool, fs: set<Path>,
                         projectAddons: Option<seq<Addon>>, self: Addon, project: Addon,
                         appName: string, appTree: string) returns (out: Output)
    requires self.pkg.Some? && project.pkg.Some?
    ensures out.AppOnly? <==> kind != "all" || enabled == Some(false)
    ensures out.WithWorker? ==>
              var cs := Contributors(fs, out.plugins);
              && out.plugins == PluginList(projectAddons, self, project, appName, appTree)
              && out.entryPath == EntryPath
              && |out.entries| == |cs|
              && (forall k :: 0 <= k < |cs| ==> out.entries[k] == EntryOf(cs[k]))
              && out.entryText == EntryText(seq(|cs|, k requires 0 <= k < |cs| => ImportLine(cs[k].name)))
              && out.artifact == (if minify then MinifiedUnbundled else Bundled)
  {
    if kind != "all" || enabled == Some(false) {
      return AppOnly;
    }
    var plugins := PluginList(projectAddons, self, project, appName, appTree);
    var entries, imports := StagePlugins(fs, plugins);
    var cs := Contributors(fs, plugins);
    assert imports == seq(|cs|, k requires 0 <= k < |cs| => ImportLine(cs[k].name));
    var artifact := if minify then MinifiedUnbundled else Bundled;
    out := WithWorker(plugins, entries, EntryPath, EntryText(imports), artifact);
  }
}

=== FILE: paths.dfy ===
/**
  File-system paths as lists of segments. An absolute, normalised POSIX path
  such as `/a/b/c.js` is the list ["a", "b", "c.js"]; the root is the empty
  list. Node's `path.join` is modelled by a normaliser over segments.
 */
module Paths {

  import opened Wrappers
  import opened Strings

  type Path = seq<string>

  /** The directory, relative to a package or workspace root, that holds worker sources. */
  const WorkersDir: Path := ["workers", "background-adapters"]

  /** The same directory as text, `workers/background-adapters` (see WorkersLocationText). */
  const WorkersLocation: string := Join(WorkersDir, '/')

  /** A segment that normalisation leaves alone. */
  predicate Plain(seg: string) {
    seg != "" && seg != "." && seg != ".." && '/' !in seg
  }

  /** A normalised list of segments: nothing left to collapse. */
  predicate Canonical(p: seq<string>) {
    forall i :: 0 <= i < |p| ==> Plain(p[i])
  }

  /** A name whose slash-separated parts are all plain, as npm package names
      (`pkg`, `@scope/pkg`) are. */
  predicate PlainName(name: string) {
    Canonical(Split(name, '/'))
  }

  /** One step of normalisation: "" and "." vanish, ".." pops a segment. Above
      the root of an absolute path ".." is dropped; in a relative path it is kept. */
  function Push(stack: seq<string>, seg: string, absolute: bool): seq<string>
  {
    if seg == "" || seg == "." then stack
    else if seg == ".." then
      if |stack| > 0 && stack[|stack| - 1] != ".." then stack[..|stack| - 1]
      else if absolute then stack
      else stack + [".."]
    else stack + [seg]
  }

  /** Normalises `segs` on top of an already normalised `stack`. */
  function Normalize(stack: seq<string>, segs: seq<string>, absolute: bool): (r: seq<string>)
    ensures absolute && Canonical(stack) && (forall i :: 0 <= i < |segs| ==> '/' !in segs[i])
            ==> Canonical(r)
    decreases |segs|
  {
    if |segs| == 0 then stack
    else Normalize(Push(stack, segs[0], absolute), segs[1..], absolute)
  }

  /** `path.join(base, rel)` for an absolute base. */
  function JoinPath(base: Path, rel: string): (r: Path)
    ensures Canonical(base) ==> Canonical(r)
  {
    Normalize(base, Split(rel, '/'), true)
  }

  /** `path.dirname`: the parent directory; the root is its own parent. */
  function Dirname(p: Path): (r: Path)
    ensures |p| > 0 ==> |r| == |p| - 1 && p == r + [p[|p| - 1]]
    ensures |p| == 0 ==> r == p
  {
    if |p| == 0 then p else p[..|p| - 1]
  }

  /** `path.relative(from, to)` when `to` lies at or below `from`; paths
      elsewhere are reported as None. */
  function Relative(from: Path, to: Path): (r: Option<seq<string>>)
    ensures r.Some? <==> |from| <= |to| && to[..|from|] == from
    ensures r.Some? ==> to == from + r.value
  {
    if |from| <= |to| && to[..|from|] == from then Some(to[|from|..]) else None
  }

  /** Normalising plain segments just appends them. */
  lemma {:induction false} NormalizePlain(stack: seq<string>, segs: seq<string>, absolute: bool)
    requires Canonical(segs)
    ensures Normalize(stack, segs, absolute) == stack + segs
    decreases |segs|
  {
    if |segs| > 0 {
      NormalizePlain(stack + [segs[0]], segs[1..], absolute);
      assert stack + [segs[0]] + segs[1..] == stack + segs;
    }
  }

  /** Normalising a concatenation is normalising its halves one after the other. */
  lemma {:induction false} NormalizeConcat(stack: seq<string>, a: seq<string>, b: seq<string>, absolute: bool)
    ensures Normalize(stack, a + b, absolute) == Normalize(Normalize(stack, a, absolute), b, absolute)
    decreases |a|
  {
    if |a| == 0 {
      assert a + b == b;
    } else {
      assert (a + b)[0] == a[0];
      assert (a + b)[1..] == a[1..] + b;
      NormalizeConcat(Push(stack, a[0], absolute), a[1..], b, absolute);
    }
  }

  /** The worker location constant is the text `workers/background-adapters`. */
  lemma WorkersLocationText()
    ensures WorkersLocation == "workers/background-adapters"
  {
    assert WorkersDir[1..] == ["background-adapters"];
  }

  /** `path.join(base, WORKERS_LOCATION)` appends the worker directory. */
  lemma JoinWorkersLocation(base: Path)
    ensures JoinPath(base, WorkersLocation) == base + WorkersDir
  {
    SplitJoin(WorkersDir, '/');
    NormalizePlain(base, WorkersDir, true);
  }

  /** Joining a single plain segment appends it. */
  lemma JoinSegment(base: Path, seg: string)
    requires Plain(seg)
    ensures JoinPath(base, seg) == base + [seg]
  {
    SplitFree(seg, '/');
    NormalizePlain(base, [seg], true);
  }
}

=== FILE: registry.dfy ===
/**
  Which packages contribute worker sources to a build, in which order, and
  where the bundled worker is served from.
 */
module Registry {

  import opened Wrappers
  import opened Strings
  import opened Paths
  import opened Resolver

  /** The package.json keyword that marks an addon as a worker plugin. */
  const PluginKeyword: string := "ember-data-background-adapter-plugin"

  /** The package metadata the build reads: the name and the optional keyword list. */
  datatype Package = Package(name: string, keywords: Option<seq<string>>)

  /** An addon or project: its optional package metadata and its root directory. */
  datatype Addon = Addon(pkg: Option<Package>, root: Path)

  /** A JavaScript value passed as the second argument of `keywords`. */
  datatype Arg = Absent | Number(n: int) | Text(s: string)

  /** JavaScript truthiness of such an argument. */
  predicate Truthy(a: Arg) {
    match a
    case Absent => false
    case Number(n) => n != 0
    case Text(s) => s != ""
  }

  /** `Array.prototype.indexOf` with strict equality: the first position of x, or -1. */
  function IndexOf(xs: seq<string>, x: string): int
    decreases |xs|
  {
    if |xs| == 0 then -1
    else if xs[0] == x then 0
    else
      var k := IndexOf(xs[1..], x);
      if k == -1 then -1 else k + 1
  }

  /** `indexOf` is -1 exactly when x is absent, and otherwise the first position holding x. */
  lemma {:induction false} IndexOfFirst(xs: seq<string>, x: string)
    ensures IndexOf(xs, x) == -1 <==> x !in xs
    ensures IndexOf(xs, x) != -1 ==>
              var r := IndexOf(xs, x);
              0 <= r < |xs| && xs[r] == x && x !in xs[..r]
    decreases |xs|
  {
    if |xs| > 0 && xs[0] != x {
      IndexOfFirst(xs[1..], x);
      var k := IndexOf(xs[1..], x);
      assert x in xs <==> x in xs[1..];
      if k != -1 {
        assert xs[..k + 1] == [xs[0]] + xs[1..][..k];
      }
    }
  }

  /** `keywords(addon, keyword)`: a missing argument falls back to the plugin
      keyword; a number is never found in a list of strings. */
  predicate KeywordsWith(a: Addon, keyword: Arg) {
    var k := if Truthy(keyword) then keyword else Text(PluginKeyword);
    && a.pkg.Some?
    && a.pkg.value.keywords.Some?
    && k.Text?
    && IndexOf(a.pkg.value.keywords.value, k.s) > -1
  }

  /** `keywords(addon)`, called with the addon alone. */
  predicate IsPlugin(a: Addon) {
    KeywordsWith(a, Absent)
  }

  /** An addon is a plugin exactly when it has package metadata with a keyword
      list that contains the plugin keyword. */
  lemma IsPluginIff(a: Addon)
    ensures IsPlugin(a) <==> a.pkg.Some? && a.pkg.value.keywords.Some? && PluginKeyword in a.pkg.value.keywords.value
  {
    if a.pkg.Some? && a.pkg.value.keywords.Some? {
      IndexOfFirst(a.pkg.value.keywords.value, PluginKeyword);
    }
  }

  /** `addons.filter(keywords)` as written: `filter` calls `keywords(addon, index)`,
      so the index becomes the keyword for every addon after the first. */
  function FilterAsWritten(addons: seq<Addon>, from: nat): seq<Addon>
    decreases |addons|
  {
    if |addons| == 0 then []
    else
      (if KeywordsWith(addons[0], Number(from)) then [addons[0]] else [])
      + FilterAsWritten(addons[1..], from + 1)
  }

  /** As written, no addon after the first can ever be selected. */
  lemma {:induction false} AsWrittenSelectsOnlyFirst(addons: seq<Addon>, from: nat)
    requires from > 0
    ensures FilterAsWritten(addons, from) == []
    decreases |addons|
  {
    if |addons| > 0 {
      AsWrittenSelectsOnlyFirst(addons[1..], from + 1);
    }
  }

  /** A marked addon in second place is dropped by the filter as written and
      kept by the intended filter. */
  lemma SecondPluginDropped()
    ensures var marked := Addon(Some(Package("plugin-b", Some([PluginKeyword]))), ["b"]);
            var addons := [Addon(None, ["a"]), marked];
            FilterAsWritten(addons, 0) == [] && FilterPlugins(addons) == [marked]
  {
    var marked := Addon(Some(Package("plugin-b", Some([PluginKeyword]))), ["b"]);
    var addons := [Addon(None, ["a"]), marked];
    AsWrittenSelectsOnlyFirst(addons[1..], 1);
    assert IndexOf([PluginKeyword], PluginKeyword) == 0;
    assert addons[1..][1..] == [];
  }

  /** The intended `addons.filter(addon => keywords(addon))`: the plugins among
      the addons, in their original order. */
  function FilterPlugins(addons: seq<Addon>): (r: seq<Addon>)
    ensures forall a :: a in r <==> a in addons && IsPlugin(a)
    ensures |r| <= |addons|
    decreases |addons|
  {
    if |addons| == 0 then []
    else (if IsPlugin(addons[0]) then [addons[0]] else []) + FilterPlugins(addons[1..])
  }

  /** Filtering keeps the order: the plugins of a concatenation are the plugins
      of the first part followed by those of the second. */
  lemma {:induction false} FilterPluginsAppend(xs: seq<Addon>, ys: seq<Addon>)
    ensures FilterPlugins(xs + ys) == FilterPlugins(xs) + FilterPlugins(ys)
    decreases |xs|
  {
    if |xs| == 0 {
      assert xs + ys == ys;
    } else {
      assert (xs + ys)[0] == xs[0];
      assert (xs + ys)[1..] == xs[1..] + ys;
      FilterPluginsAppend(xs[1..], ys);
      Assoc(if IsPlugin(xs[0]) then [xs[0]] else [], FilterPlugins(xs[1..]), FilterPlugins(ys));
    }
  }

  /** The resolver's view of an addon with package metadata. */
  function AsPlugin(a: Addon): Plugin
    requires a.pkg.Some?
  {
    Plugin(a.pkg.value.name, a.root)
  }

  function AsPlugins(addons: seq<Addon>): (r: seq<Plugin>)
    requires forall i :: 0 <= i < |addons| ==> addons[i].pkg.Some?
    ensures |r| == |addons| && forall i :: 0 <= i < |addons| ==> r[i] == AsPlugin(addons[i])
  {
    seq(|addons|, i requires 0 <= i < |addons| => AsPlugin(addons[i]))
  }

  /** The plugin list of a build: the project's plugin addons, then this addon,
      then the project; when building the dummy app, the dummy app last, named
      after the project and rooted one level above the app tree. */
  function PluginList(projectAddons: Option<seq<Addon>>, self: Addon, project: Addon,
                      appName: string, appTree: string): (r: seq<Plugin>)
    requires self.pkg.Some? && project.pkg.Some?
    ensures var addons := FilterPlugins(if projectAddons.Some? then projectAddons.value else []);
            var n := |addons|;
            && |r| == n + 2 + (if appName == "dummy" then 1 else 0)
            && (forall i :: 0 <= i < n ==> IsPlugin(addons[i]) && r[i] == AsPlugin(addons[i]))
            && r[n] == AsPlugin(self)
            && r[n + 1] == AsPlugin(project)
            && (appName == "dummy" ==>
                  r[n + 2] == Plugin(project.pkg.value.name + "-dummy", JoinPath(self.root, appTree + "/..")))
  {
    var addons := FilterPlugins(if projectAddons.Some? then projectAddons.value else []);
    assert forall i :: 0 <= i < |addons| ==> addons[i] in addons;
    Assemble(addons, self, project, appName, appTree)
  }

  /** The selected addons as plugins, then this addon, the project and, for the
      dummy app, the dummy app. */
  function Assemble(selected: seq<Addon>, self: Addon, project: Addon, appName: string, appTree: string): seq<Plugin>
    requires self.pkg.Some? && project.pkg.Some?
    requires forall i :: 0 <= i < |selected| ==> selected[i].pkg.Some?
  {
    var plugins := AsPlugins(selected) + [AsPlugin(self), AsPlugin(project)];
    if appName == "dummy" then
      plugins + [Plugin(project.pkg.value.name + "-dummy", JoinPath(self.root, appTree + "/.."))]
    else plugins
  }

  /** The filter as written keeps the first addon when it is a plugin, and nothing else. */
  lemma AsWrittenIsFirstOnly(addons: seq<Addon>)
    ensures FilterAsWritten(addons, 0) == FilterPlugins(addons[..if |addons| > 0 then 1 else 0])
  {
    if |addons| > 0 {
      assert addons[..1] == [addons[0]];
      AsWrittenHead(addons);
      FilterOne(addons[0]);
    }
  }

  /** As written, the filter's result is decided by the first addon alone. */
  lemma AsWrittenHead(addons: seq<Addon>)
    requires |addons| > 0
    ensures FilterAsWritten(addons, 0) == if IsPlugin(addons[0]) then [addons[0]] else []
  {
    AsWrittenSelectsOnlyFirst(addons[1..], 1);
    KeywordZero(addons[0]);
  }

  /** Index 0 is falsy, so the first addon is tested against the plugin keyword. */
  lemma KeywordZero(a: Addon)
    ensures KeywordsWith(a, Number(0)) <==> IsPlugin(a)
  {
  }

  /** The intended filter on one addon keeps it exactly when it is a plugin. */
  lemma FilterOne(a: Addon)
    ensures FilterPlugins([a]) == if IsPlugin(a) then [a] else []
  {
  }

  /** The projects' addons cut down to the first one. */
  function FirstOnly(projectAddons: Option<seq<Addon>>): Option<seq<Addon>> {
    if projectAddons.Some? && |projectAddons.value| > 0 then Some(projectAddons.value[..1]) else projectAddons
  }

  /** The plugin list as the code builds it, with `addons.filter(keywords)`. */
  function PluginListAsWritten(projectAddons: Option<seq<Addon>>, self: Addon, project: Addon,
                               appName: string, appTree: string): seq<Plugin>
    requires self.pkg.Some? && project.pkg.Some?
  {
    var addons := if projectAddons.Some? then projectAddons.value else [];
    AsWrittenIsFirstOnly(addons);
    var selected := FilterAsWritten(addons, 0);
    assert forall i :: 0 <= i < |selected| ==> selected[i] in selected;
    Assemble(selected, self, project, appName, appTree)
  }

  /** As written, the plugin list is the intended list built from the first
      project addon alone: every later plugin addon is missing. */
  lemma AsWrittenListUsesFirstAddon(projectAddons: Option<seq<Addon>>, self: Addon, project: Addon,
                                    appName: string, appTree: string)
    requires self.pkg.Some? && project.pkg.Some?
    ensures PluginListAsWritten(projectAddons, self, project, appName, appTree)
         == PluginList(FirstOnly(projectAddons), self, project, appName, appTree)
  {
    var addons := if projectAddons.Some? then projectAddons.value else [];
    AsWrittenIsFirstOnly(addons);
    assert (if FirstOnly(projectAddons).Some? then FirstOnly(projectAddons).value else [])
        == addons[..if |addons| > 0 then 1 else 0];
  }

  /** The bundled worker's file name. */
  const WorkerFilename: string := "worker.js"

  /** `config(env, base)`: the worker's URL, `path.join(rootURL, WORKERS_LOCATION, WORKER_FILENAME)`. */
  function WorkerLocation(rootURL: string): (loc: string)
    ensures var absolute := |rootURL| > 0 && rootURL[0] == '/';
            loc == (if absolute then "/" else "")
                   + Join(Normalize([], Split(rootURL, '/'), absolute) + WorkersDir + [WorkerFilename], '/')
  {
    var absolute := |rootURL| > 0 && rootURL[0] == '/';
    var segs := Normalize([], Split(rootURL + "/" + WorkersLocation + "/" + WorkerFilename, '/'), absolute);
    WorkerLocationSegments(rootURL, absolute);
    (if absolute then "/" else "") + Join(segs, '/')
  }

  /** The segments of the worker's file below the root URL. */
  lemma WorkerFileSegments()
    ensures Split(WorkersLocation + "/" + WorkerFilename, '/') == WorkersDir + [WorkerFilename]
    ensures Join(WorkersDir + [WorkerFilename], '/') == WorkersLocation + "/" + WorkerFilename
  {
    var tail := WorkersDir + [WorkerFilename];
    assert tail[1..] == ["background-adapters", WorkerFilename];
    assert tail[1..][1..] == [WorkerFilename];
    assert Join(tail[1..], '/') == "background-adapters" + "/" + WorkerFilename;
    assert Join(tail, '/') == "workers" + "/" + ("background-adapters" + "/" + WorkerFilename);
    var text := Join(tail, '/');
    assert text == WorkersLocation + "/" + WorkerFilename;
    SplitJoin(tail, '/');
    assert Split(text, '/') == tail;
  }

  lemma WorkerLocationSegments(rootURL: string, absolute: bool)
    ensures Normalize([], Split(rootURL + "/" + WorkersLocation + "/" + WorkerFilename, '/'), absolute)
         == Normalize([], Split(rootURL, '/'), absolute) + WorkersDir + [WorkerFilename]
  {
    WorkerFileSegments();
    var a := rootURL + "/";
    Assoc(a + WorkersLocation, "/", WorkerFilename);
    Assoc(a, WorkersLocation, "/" + WorkerFilename);
    Assoc(WorkersLocation, "/", WorkerFilename);
    assert Canonical(WorkersDir + [WorkerFilename]);
    JoinNormalized(rootURL, WorkersLocation + "/" + WorkerFilename, WorkersDir + [WorkerFilename], absolute);
  }

  /** Joining plain segments `tail`, written as `text`, onto a base directory
      appends them to the normalised base. */
  lemma JoinNormalized(base: string, text: string, tail: seq<string>, absolute: bool)
    requires Split(text, '/') == tail && Canonical(tail)
    ensures Normalize([], Split(base + ['/'] + text, '/'), absolute) == Normalize([], Split(base, '/'), absolute) + tail
  {
    SplitAround(base, '/', text);
    NormalizeConcat([], Split(base, '/'), tail, absolute);
    NormalizePlain(Normalize([], Split(base, '/'), absolute), tail, absolute);
  }

  /** Below an absolute root URL `/a/b`, the worker is served at `/a/b/workers/background-adapters/worker.js`. */
  lemma WorkerLocationBelowRoot(root: string, dirs: seq<string>)
    requires Canonical(dirs) && root == "/" + Join(dirs, '/')
    ensures WorkerLocation(root) == "/" + Join(dirs + WorkersDir + [WorkerFilename], '/')
  {
    assert root == "" + ['/'] + Join(dirs, '/');
    SplitAround("", '/', Join(dirs, '/'));
    assert Split("", '/') == [""];
    if |dirs| == 0 {
      assert Split(root, '/') == ["", ""];
      assert Normalize([], ["", ""], true) == Normalize([], [""], true) == [];
    } else {
      SplitJoin(dirs, '/');
      assert Split(root, '/') == [""] + dirs;
      assert ([""] + dirs)[1..] == dirs;
      assert Normalize([], [""] + dirs, true) == Normalize([], dirs, true);
      NormalizePlain([], dirs, true);
    }
    assert Normalize([], Split(root, '/'), true) == dirs;
  }

  /** The default root URL `/` serves the worker at /workers/background-adapters/worker.js. */
  lemma DefaultWorkerLocation(root: string)
    requires root == "/"
    ensures WorkerLocation(root) == "/" + WorkersLocation + "/" + WorkerFilename
  {
    assert root == "/" + Join([], '/');
    WorkerLocationBelowRoot(root, []);
    WorkerFileSegments();
    assert [] + WorkersDir + [WorkerFilename] == WorkersDir + [WorkerFilename];
  }
}

=== FILE: resolver.dfy ===
/**
  The bundler's `resolveId` hook that decides, for every import met while
  bundling the staged worker sources, which plugin owns it and which file it
  names. The hook's mutable per-build `env` is threaded explicitly: ResolveId
  takes the state before a call and returns the state after it.
 */
module Resolver {

  import opened Wrappers
  import opened Strings
  import opened Paths

  /** A plugin as the resolver sees it: its package name and its root directory. */
  datatype Plugin = Plugin(name: string, root: Path)

  /** A row of the resolution table. Rows written by the sideload pass have no owner. */
  datatype Resolution = Resolution(owner: Option<string>, location: Path)

  type Table = map<string, Resolution>

  /** The staging workspace and its worker directory, fixed on first use. */
  datatype Locations = Locations(workers: Path, workspace: Path)

  /** The per-build state of the hook. */
  datatype Env = Env(resolutions: Table, locations: Option<Locations>)

  /** What the hook gives the bundler: a file, null (the bundler's default
      resolution applies), or a thrown error. */
  datatype Answer = Resolved(location: Path) | Unhandled | Failed

  /** The module lookup `resolve.sync(id, { basedir })`; None is a miss. */
  type Lookup = (string, Path) -> Option<Path>

  /** What stays fixed during one build: the existing paths, the module lookup
      and the plugin list. */
  datatype Build = Build(fs: set<Path>, lookup: Lookup, plugins: seq<Plugin>)

  /** The outcome of visiting one plugin in the hook's loop. */
  datatype Decision =
    | Skip                                  // go on with the next plugin
    | Answer(result: Option<Path>)          // return this, table untouched
    | Bind(owner: string, location: Path)   // record the owner, return the location

  /** The state a build starts with. */
  const Fresh: Env := Env(map[], None)

  predicate HasNul(s: string) {
    '\0' in s
  }

  /** Walks upward from `head` and returns the nearest strict ancestor that
      holds `needle`, or None once the root has been checked. */
  function Seek(fs: set<Path>, head: Path, needle: Path): (r: Option<Path>)
    ensures r.Some? ==> |r.value| < |head| && head[..|r.value|] == r.value && r.value + needle in fs
    ensures r.Some? ==> forall k :: |r.value| < k < |head| ==> head[..k] + needle !in fs
    ensures r.None? ==> forall k :: 0 <= k < |head| ==> head[..k] + needle !in fs
    decreases |head|
  {
    if |head| == 0 then None
    else
      var up := head[..|head| - 1];
      assert forall k :: 0 <= k <= |up| ==> up[..k] == head[..k];
      if up + needle in fs then Some(up) else Seek(fs, up, needle)
  }

  /** The text `path.join(relative, '..' repeated (|rel| - k) times)`: the
      ancestor of the importer made of its first k relative segments. */
  function AncestorText(rel: seq<string>, k: nat): string
    requires k <= |rel|
  {
    if k == 0 then "." else Join(rel[..k], '/')
  }

  /** The importer lies in the namespace directory of the plugin called `name`:
      some proper ancestor of its path, relative to the worker directory, is
      that name. Importers outside the worker directory are in no namespace. */
  predicate InNamespace(rel: Option<seq<string>>, name: string) {
    rel.Some? && exists k :: 0 <= k < |rel.value| && AncestorText(rel.value, k) == name
  }

  /** The directory a plugin's worker sources are staged under. */
  function Namespace(workers: Path, name: string): Path {
    JoinPath(workers, name)
  }

  /** The staged entry module of a plugin, `path.join(<namespace>, 'index.js')`. */
  function IndexFile(workers: Path, name: string): Path {
    Namespace(workers, name) + ["index.js"]
  }

  /** Appending the segment is the join: `index.js` is a plain segment. */
  lemma IndexFileIsJoin(workers: Path, name: string)
    ensures IndexFile(workers, name) == JoinPath(Namespace(workers, name), "index.js")
  {
    JoinSegment(Namespace(workers, name), "index.js");
  }

  /** The file an import names inside a plugin's namespace. */
  function ModuleFile(workers: Path, name: string, importee: string): Path {
    JoinPath(Namespace(workers, name), importee + ".js")
  }

  /** The import names the plugin itself, and the plugin has a staged entry module. */
  predicate NameHit(b: Build, workers: Path, p: Plugin, importee: string) {
    p.name == importee && p.name != "" && IndexFile(workers, p.name) in b.fs
  }

  /** One pass of the hook's loop, for plugin `p`. */
  function Visit(b: Build, workers: Path, rel: Option<seq<string>>, importee: string,
                 table: Table, p: Plugin): Decision
  {
    if NameHit(b, workers, p, importee) then Answer(Some(IndexFile(workers, p.name)))
    else if !InNamespace(rel, p.name) then Skip
    else if ModuleFile(workers, p.name, importee) in b.fs then Answer(Some(ModuleFile(workers, p.name, importee)))
    else if importee in table && table[importee].owner != Some(p.name) then Answer(None)
    else if importee in table then Answer(Some(table[importee].location))
    else match b.lookup(importee, p.root)
      case None => Skip
      case Some(l) => Bind(p.name, l)
  }

  /** The hook's loop over the plugins `ps`: the first decision that is not Skip,
      or Skip when every plugin was passed over. */
  function Walk(b: Build, workers: Path, rel: Option<seq<string>>, importee: string,
                table: Table, ps: seq<Plugin>): (d: Decision)
    ensures d.Answer? && d.result.Some? ==>
              d.result.value in b.fs || (importee in table && table[importee].location == d.result.value)
    ensures d.Bind? ==> importee !in table
    ensures d.Bind? ==> exists j :: 0 <= j < |ps| && ps[j].name == d.owner && b.lookup(importee, ps[j].root) == Some(d.location)
    decreases |ps|
  {
    if |ps| == 0 then Skip
    else
      var d := Visit(b, workers, rel, importee, table, ps[0]);
      if d.Skip? then
        var rest := Walk(b, workers, rel, importee, table, ps[1..]);
        assert rest.Bind? ==> exists j :: 1 <= j < |ps| && ps[j].name == rest.owner && b.lookup(importee, ps[j].root) == Some(rest.location) by {
          if rest.Bind? {
            var j :| 0 <= j < |ps[1..]| && ps[1..][j].name == rest.owner && b.lookup(importee, ps[1..][j].root) == Some(rest.location);
            assert ps[j + 1] == ps[1..][j];
          }
        }
        rest
      else d
  }

  /** The sideload pass: when the importer is the location of some row, resolve
      the import from the importer's own directory and record an owner-less row. */
  function Sideload(lookup: Lookup, table: Table, importer: Path, importee: string): (r: (Table, Option<Path>))
    ensures r.1.Some? <==> (exists k :: k in table && table[k].location == importer) && lookup(importee, Dirname(importer)).Some?
    ensures r.1.Some? ==> r.1 == lookup(importee, Dirname(importer)) && r.0 == table[importee := Resolution(None, r.1.value)]
    ensures r.1.None? ==> r.0 == table
  {
    if exists k :: k in table && table[k].location == importer then
      match lookup(importee, Dirname(importer))
      case Some(l) => (table[importee := Resolution(None, l)], Some(l))
      case None => (table, None)
    else (table, None)
  }

  /** The sideload loop as written: rows visited in the table's insertion order `order`. */
  function SideloadScan(lookup: Lookup, table: Table, order: seq<string>, importer: Path, importee: string): (Table, Option<Path>)
    decreases |order|
  {
    if |order| == 0 then (table, None)
    else if order[0] !in table || table[order[0]].location != importer then
      SideloadScan(lookup, table, order[1..], importer, importee)
    else match lookup(importee, Dirname(table[order[0]].location))
      case Some(l) => (table[importee := Resolution(None, l)], Some(l))
      case None => SideloadScan(lookup, table, order[1..], importer, importee)
  }

  /** Rows change only under the import being resolved: no row disappears, an
      owned row is never handed to another owner, and a row may only be
      overwritten by an owner-less one. */
  predicate Extends(t: Table, t': Table, importee: string) {
    && (forall k :: k in t' ==> k in t || k == importee)
    && (forall k :: k in t ==> k in t' && (t'[k] == t[k] || (k == importee && t'[k].owner.None?)))
  }

  function AnswerOf(a: Option<Path>): Answer {
    if a.Some? then Resolved(a.value) else Unhandled
  }

  /** The `resolveId(importee, importer)` hook. */
  function ResolveId(b: Build, env: Env, importee: string, importer: Option<Path>): (r: (Env, Answer))
    ensures HasNul(importee) || importer.None? ==> r == (env, Unhandled)
    ensures r.1.Failed? <==>
              !HasNul(importee) && importer.Some? && env.locations.None?
              && Seek(b.fs, Dirname(importer.value), WorkersDir).None?
    ensures r.1.Failed? ==> r.0 == env
    ensures !HasNul(importee) && importer.Some? && !r.1.Failed? ==> r.0.locations.Some?
    ensures env.locations.Some? ==> r.0.locations == env.locations
    ensures env.locations.None? && r.0.locations.Some? ==>
              var ws := Seek(b.fs, Dirname(importer.value), WorkersDir);
              ws.Some? && r.0.locations.value == Locations(ws.value + WorkersDir, ws.value)
    ensures Extends(env.resolutions, r.0.resolutions, importee)
    ensures r.1.Resolved? ==>
              r.1.location in b.fs
              || (importee in r.0.resolutions && r.0.resolutions[importee].location == r.1.location)
  {
    if HasNul(importee) || importer.None? then (env, Unhandled)
    else
      var found := Seek(b.fs, Dirname(importer.value), WorkersDir);
      if env.locations.None? && found.None? then (env, Failed)
      else
        var locs := if env.locations.Some? then env.locations.value
                    else Locations(found.value + WorkersDir, found.value);
        var rel := Relative(locs.workers, importer.value);
        match Walk(b, locs.workers, rel, importee, env.resolutions, b.plugins)
        case Answer(a) => (Env(env.resolutions, Some(locs)), AnswerOf(a))
        case Bind(owner, l) =>
          (Env(env.resolutions[importee := Resolution(Some(owner), l)], Some(locs)), Resolved(l))
        case Skip =>
          var (t, a) := Sideload(b.lookup, env.resolutions, importer.value, importee);
          (Env(t, Some(locs)), AnswerOf(a))
  }
}

=== FILE: resolver_props.dfy ===
/**
  Properties of the resolver hook: what each branch of its plugin loop does
  once the loop reaches a plugin, when the sideload pass runs, how repeated
  calls behave, and what stays fixed across a whole build.
 */
module ResolverProps {

  import opened Wrappers
  import opened Strings
  import opened Paths
  import opened Resolver

  /** The worker directory an established state uses. */
  function WorkersOf(env: Env): Path
    requires env.locations.Some?
  {
    env.locations.value.workers
  }

  /** The decision the loop takes at plugin j for this call. */
  function VisitAt(b: Build, env: Env, importee: string, importer: Path, j: nat): Decision
    requires env.locations.Some? && j < |b.plugins|
  {
    Visit(b, WorkersOf(env), Relative(WorkersOf(env), importer), importee, env.resolutions, b.plugins[j])
  }

  /** The loop of a call from an established state passes over every plugin before i. */
  predicate Reaches(b: Build, env: Env, importee: string, importer: Path, i: nat) {
    && env.locations.Some?
    && i <= |b.plugins|
    && forall j :: 0 <= j < i ==> VisitAt(b, env, importee, importer, j).Skip?
  }

  /** The effect of a decision on the state and the answer. */
  function Apply(env: Env, importee: string, d: Decision): (Env, Answer)
    requires !d.Skip?
  {
    match d
    case Answer(a) => (env, AnswerOf(a))
    case Bind(owner, l) =>
      (env.(resolutions := env.resolutions[importee := Resolution(Some(owner), l)]), Resolved(l))
  }

  // ---------------------------------------------------------------------------
  // The loop

  /** Plugins the loop passes over do not influence its outcome. */
  lemma {:induction false} WalkPastSkips(b: Build, workers: Path, rel: Option<seq<string>>, importee: string,
                                         table: Table, ps: seq<Plugin>, i: nat)
    requires i <= |ps|
    requires forall j :: 0 <= j < i ==> Visit(b, workers, rel, importee, table, ps[j]).Skip?
    ensures Walk(b, workers, rel, importee, table, ps) == Walk(b, workers, rel, importee, table, ps[i..])
    decreases i
  {
    if i > 0 {
      WalkPastSkips(b, workers, rel, importee, table, ps[1..], i - 1);
      assert ps[1..][i - 1..] == ps[i..];
    }
  }

  /** A non-Skip loop outcome comes from the first plugin that does not pass. */
  lemma {:induction false} FirstStop(b: Build, workers: Path, rel: Option<seq<string>>, importee: string,
                                     table: Table, ps: seq<Plugin>) returns (i: nat)
    requires !Walk(b, workers, rel, importee, table, ps).Skip?
    ensures i < |ps|
    ensures forall j :: 0 <= j < i ==> Visit(b, workers, rel, importee, table, ps[j]).Skip?
    ensures Walk(b, workers, rel, importee, table, ps) == Visit(b, workers, rel, importee, table, ps[i])
    decreases |ps|
  {
    if Visit(b, workers, rel, importee, table, ps[0]).Skip? {
      var k := FirstStop(b, workers, rel, importee, table, ps[1..]);
      i := k + 1;
    } else {
      i := 0;
    }
  }

  /** The loop reads only the files and the lookup of a build, not its plugin list. */
  lemma {:induction false} WalkSameBuild(b: Build, b': Build, workers: Path, rel: Option<seq<string>>,
                                         importee: string, table: Table, ps: seq<Plugin>)
    requires b'.fs == b.fs && b'.lookup == b.lookup
    ensures Walk(b, workers, rel, importee, table, ps) == Walk(b', workers, rel, importee, table, ps)
    decreases |ps|
  {
    if |ps| > 0 {
      WalkSameBuild(b, b', workers, rel, importee, table, ps[1..]);
      assert Visit(b, workers, rel, importee, table, ps[0]) == Visit(b', workers, rel, importee, table, ps[0]);
    }
  }

  /** Outside every plugin's namespace the loop only looks for imports by
      plugin name, so the resolution table cannot change its outcome. */
  lemma {:induction false} WalkIgnoresTable(b: Build, workers: Path, rel: Option<seq<string>>, importee: string,
                                            t: Table, t': Table, ps: seq<Plugin>)
    requires forall j :: 0 <= j < |ps| ==> !InNamespace(rel, ps[j].name)
    ensures Walk(b, workers, rel, importee, t, ps) == Walk(b, workers, rel, importee, t', ps)
    decreases |ps|
  {
    if |ps| > 0 {
      WalkIgnoresTable(b, workers, rel, importee, t, t', ps[1..]);
    }
  }

  /** Reaches, stated over Visit. */
  lemma PassedOver(b: Build, env: Env, importee: string, importer: Path, i: nat)
    requires Reaches(b, env, importee, importer, i)
    ensures forall j :: 0 <= j < i ==>
      Visit(b, WorkersOf(env), Relative(WorkersOf(env), importer), importee, env.resolutions, b.plugins[j]).Skip?
  {
    forall j | 0 <= j < i
      ensures Visit(b, WorkersOf(env), Relative(WorkersOf(env), importer), importee, env.resolutions, b.plugins[j]).Skip?
    {
      assert VisitAt(b, env, importee, importer, j).Skip?;
    }
  }

  /** Once the loop reaches plugin i and that plugin decides, the call's result
      is that decision: no later plugin and no sideload pass is consulted. */
  lemma StopsAt(b: Build, env: Env, importee: string, importer: Path, i: nat)
    requires !HasNul(importee) && Reaches(b, env, importee, importer, i) && i < |b.plugins|
    requires !VisitAt(b, env, importee, importer, i).Skip?
    ensures ResolveId(b, env, importee, Some(importer)) == Apply(env, importee, VisitAt(b, env, importee, importer, i))
  {
    var W := WorkersOf(env);
    var rel := Relative(W, importer);
    PassedOver(b, env, importee, importer, i);
    WalkPastSkips(b, W, rel, importee, env.resolutions, b.plugins, i);
  }

  /** An import naming a reached plugin with a staged entry module resolves to that module. */
  lemma NameImportResolves(b: Build, env: Env, importee: string, importer: Path, i: nat)
    requires !HasNul(importee) && Reaches(b, env, importee, importer, i) && i < |b.plugins|
    requires b.plugins[i].name == importee && importee != ""
    requires IndexFile(WorkersOf(env), importee) in b.fs
    ensures ResolveId(b, env, importee, Some(importer)) == (env, Resolved(IndexFile(WorkersOf(env), importee)))
  {
    StopsAt(b, env, importee, importer, i);
  }

  /** Inside a reached plugin's namespace, a file `<namespace>/<importee>.js` wins. */
  lemma NamespaceFileResolves(b: Build, env: Env, importee: string, importer: Path, i: nat)
    requires !HasNul(importee) && Reaches(b, env, importee, importer, i) && i < |b.plugins|
    requires !NameHit(b, WorkersOf(env), b.plugins[i], importee)
    requires InNamespace(Relative(WorkersOf(env), importer), b.plugins[i].name)
    requires ModuleFile(WorkersOf(env), b.plugins[i].name, importee) in b.fs
    ensures ResolveId(b, env, importee, Some(importer))
            == (env, Resolved(ModuleFile(WorkersOf(env), b.plugins[i].name, importee)))
  {
    StopsAt(b, env, importee, importer, i);
  }

  /** An import already owned by another plugin is a conflict: the hook returns
      null, changes nothing, and neither later plugins nor the sideload pass are tried. */
  lemma ConflictYieldsNull(b: Build, env: Env, importee: string, importer: Path, i: nat)
    requires !HasNul(importee) && Reaches(b, env, importee, importer, i) && i < |b.plugins|
    requires !NameHit(b, WorkersOf(env), b.plugins[i], importee)
    requires InNamespace(Relative(WorkersOf(env), importer), b.plugins[i].name)
    requires ModuleFile(WorkersOf(env), b.plugins[i].name, importee) !in b.fs
    requires importee in env.resolutions && env.resolutions[importee].owner != Some(b.plugins[i].name)
    ensures ResolveId(b, env, importee, Some(importer)) == (env, Unhandled)
  {
    StopsAt(b, env, importee, importer, i);
  }

  /** An import already owned by the same plugin reuses the recorded location
      without a new lookup. */
  lemma SameOwnerReuses(b: Build, env: Env, importee: string, importer: Path, i: nat)
    requires !HasNul(importee) && Reaches(b, env, importee, importer, i) && i < |b.plugins|
    requires !NameHit(b, WorkersOf(env), b.plugins[i], importee)
    requires InNamespace(Relative(WorkersOf(env), importer), b.plugins[i].name)
    requires ModuleFile(WorkersOf(env), b.plugins[i].name, importee) !in b.fs
    requires importee in env.resolutions && env.resolutions[importee].owner == Some(b.plugins[i].name)
    ensures ResolveId(b, env, importee, Some(importer)) == (env, Resolved(env.resolutions[importee].location))
  {
    StopsAt(b, env, importee, importer, i);
  }

  /** The first successful lookup from the plugin's root records the plugin as owner. */
  lemma FirstLookupRecords(b: Build, env: Env, importee: string, importer: Path, i: nat, l: Path)
    requires !HasNul(importee) && Reaches(b, env, importee, importer, i) && i < |b.plugins|
    requires !NameHit(b, WorkersOf(env), b.plugins[i], importee)
    requires InNamespace(Relative(WorkersOf(env), importer), b.plugins[i].name)
    requires ModuleFile(WorkersOf(env), b.plugins[i].name, importee) !in b.fs
    requires importee !in env.resolutions
    requires b.lookup(importee, b.plugins[i].root) == Some(l)
    ensures ResolveId(b, env, importee, Some(importer))
            == (env.(resolutions := env.resolutions[importee := Resolution(Some(b.plugins[i].name), l)]), Resolved(l))
  {
    StopsAt(b, env, importee, importer, i);
  }

  /** A failed lookup moves on: the call behaves as if plugin i were not in the list. */
  lemma FailedLookupMovesOn(b: Build, env: Env, importee: string, importer: Path, i: nat)
    requires !HasNul(importee) && Reaches(b, env, importee, importer, i) && i < |b.plugins|
    requires !NameHit(b, WorkersOf(env), b.plugins[i], importee)
    requires ModuleFile(WorkersOf(env), b.plugins[i].name, importee) !in b.fs
    requires importee !in env.resolutions
    requires b.lookup(importee, b.plugins[i].root).None?
    ensures ResolveId(b, env, importee, Some(importer))
            == ResolveId(b.(plugins := b.plugins[..i] + b.plugins[i + 1..]), env, importee, Some(importer))
  {
    var W := WorkersOf(env);
    var rel := Relative(W, importer);
    var b' := b.(plugins := b.plugins[..i] + b.plugins[i + 1..]);
    PassedOver(b, env, importee, importer, i);
    assert Visit(b, W, rel, importee, env.resolutions, b.plugins[i]).Skip?;
    WalkWithout(b, W, rel, importee, env.resolutions, b.plugins, i);
    WalkSameBuild(b, b', W, rel, importee, env.resolutions, b'.plugins);
  }

  /** Dropping a plugin that the loop, and every plugin before it, passes over
      leaves the loop's outcome unchanged. */
  lemma WalkWithout(b: Build, workers: Path, rel: Option<seq<string>>, importee: string,
                    table: Table, ps: seq<Plugin>, i: nat)
    requires i < |ps|
    requires forall j :: 0 <= j <= i ==> Visit(b, workers, rel, importee, table, ps[j]).Skip?
    ensures Walk(b, workers, rel, importee, table, ps) == Walk(b, workers, rel, importee, table, ps[..i] + ps[i + 1..])
  {
    var qs := ps[..i] + ps[i + 1..];
    WalkPastSkips(b, workers, rel, importee, table, ps, i + 1);
    forall j | 0 <= j < i
      ensures Visit(b, workers, rel, importee, table, qs[j]).Skip?
    {
      assert qs[j] == ps[j];
    }
    WalkPastSkips(b, workers, rel, importee, table, qs, i);
    assert qs[i..] == ps[i + 1..];
  }

  /** The sideload pass runs exactly when the loop passes over every plugin. */
  lemma SideloadWhenLoopPasses(b: Build, env: Env, importee: string, importer: Path)
    requires !HasNul(importee) && Reaches(b, env, importee, importer, |b.plugins|)
    ensures var (t, a) := Sideload(b.lookup, env.resolutions, importer, importee);
            ResolveId(b, env, importee, Some(importer)) == (env.(resolutions := t), AnswerOf(a))
  {
    var W := WorkersOf(env);
    PassedOver(b, env, importee, importer, |b.plugins|);
    WalkPastSkips(b, W, Relative(W, importer), importee, env.resolutions, b.plugins, |b.plugins|);
    assert b.plugins[|b.plugins|..] == [];
    assert Walk(b, W, Relative(W, importer), importee, env.resolutions, b.plugins).Skip?;
  }

  // ---------------------------------------------------------------------------
  // Namespaces and the entry module

  /** A plain name is neither "." nor empty. */
  lemma PlainNameNotDot(name: string)
    ensures PlainName(name) ==> name != "." && name != ""
  {
    if name == "" {
      assert Split(name, '/') == [""];
      assert !Plain(Split(name, '/')[0]);
    } else if name == "." {
      SplitFree(name, '/');
      assert !Plain(Split(name, '/')[0]);
    }
  }

  /** For plain names and a normalised importer, being in a plugin's namespace
      is lying strictly below the plugin's staged directory. */
  lemma InNamespaceIffBelow(workers: Path, importer: Path, name: string)
    requires Canonical(importer) && PlainName(name)
    ensures InNamespace(Relative(workers, importer), name)
        <==> |Namespace(workers, name)| < |importer| && importer[..|Namespace(workers, name)|] == Namespace(workers, name)
  {
    NormalizePlain(workers, Split(name, '/'), true);
    if InNamespace(Relative(workers, importer), name) {
      NamespaceIsBelow(workers, importer, name);
    }
    BelowIsNamespace(workers, importer, name);
  }

  /** An importer in a plugin's namespace lies strictly below its staged directory. */
  lemma NamespaceIsBelow(workers: Path, importer: Path, name: string)
    requires Canonical(importer) && PlainName(name)
    requires InNamespace(Relative(workers, importer), name)
    ensures var n := workers + Split(name, '/');
            |n| < |importer| && importer[..|n|] == n
  {
    var N := Split(name, '/');
    var R := Relative(workers, importer).value;
    var k :| 0 <= k < |R| && AncestorText(R, k) == name;
    PlainNameNotDot(name);
    assert k > 0;
    assert Canonical(R) by {
      forall j | 0 <= j < |R| ensures Plain(R[j]) {
        assert R[j] == importer[|workers| + j];
      }
    }
    SplitJoin(R[..k], '/');
    assert N == R[..k];
    assert importer == workers + R;
    assert importer[..|workers + N|] == workers + R[..k];
  }

  /** An importer strictly below a plugin's staged directory is in its namespace. */
  lemma BelowIsNamespace(workers: Path, importer: Path, name: string)
    ensures var n := workers + Split(name, '/');
            |n| < |importer| && importer[..|n|] == n ==> InNamespace(Relative(workers, importer), name)
  {
    var N := Split(name, '/');
    if |workers + N| < |importer| && importer[..|workers + N|] == workers + N {
      assert importer[..|workers|] == workers;
      var R := Relative(workers, importer).value;
      assert importer == workers + R;
      forall j | 0 <= j < |N| ensures R[j] == N[j] {
        assert R[j] == importer[|workers| + j];
        assert importer[..|workers + N|][|workers| + j] == N[j];
      }
      assert R[..|N|] == N;
      JoinSplit(name, '/');
      assert AncestorText(R, |N|) == name;
    }
  }

  /** Imports from the synthesized entry module `<workers>/index.js` lie in no
      namespace, so `import "<name>"` there resolves to the entry module of the
      first plugin of that name that has one. */
  lemma EntryImportResolves(b: Build, env: Env, importee: string, i: nat)
    requires env.locations.Some? && !HasNul(importee)
    requires forall j :: 0 <= j < |b.plugins| ==> PlainName(b.plugins[j].name)
    requires i < |b.plugins| && b.plugins[i].name == importee
    requires IndexFile(WorkersOf(env), importee) in b.fs
    requires forall j :: 0 <= j < i ==> !NameHit(b, WorkersOf(env), b.plugins[j], importee)
    ensures ResolveId(b, env, importee, Some(WorkersOf(env) + ["index.js"]))
            == (env, Resolved(IndexFile(WorkersOf(env), importee)))
  {
    var W := WorkersOf(env);
    var importer := W + ["index.js"];
    assert Relative(W, importer) == Some(["index.js"]);
    forall j | 0 <= j < |b.plugins|
      ensures !InNamespace(Relative(W, importer), b.plugins[j].name)
    {
      PlainNameNotDot(b.plugins[j].name);
    }
    PlainNameNotDot(importee);
    NameImportResolves(b, env, importee, importer, i);
  }

  /** The first call from the entry module of a fresh build fixes the workspace
      to the directory holding the worker directory. */
  lemma FirstCallFixesWorkspace(b: Build, importee: string, ws: Path)
    requires !HasNul(importee)
    requires ws + WorkersDir in b.fs
    requires ws + ["workers"] + WorkersDir !in b.fs
    ensures (ResolveId(b, Fresh, importee, Some(ws + WorkersDir + ["index.js"])).0).locations
            == Some(Locations(ws + WorkersDir, ws))
  {
    var origin := Dirname(ws + WorkersDir + ["index.js"]);
    assert origin == ws + WorkersDir;
    assert origin[..|ws|] == ws;
    assert origin[..|ws| + 1] == ws + ["workers"];
    var r := Seek(b.fs, origin, WorkersDir);
    assert r.Some?;
    assert |r.value| == |ws|;
  }

  // ---------------------------------------------------------------------------
  // Repeated calls

  /** From inside the namespace of one plugin name, and with no row located at
      the importer, repeating a call returns the same answer and changes
      nothing. Several plugins may carry that name (as this addon and the
      project do when the addon builds its own dummy app); i is the first. */
  lemma RepeatInNamespace(b: Build, env: Env, importee: string, importer: Path, i: nat)
    requires !HasNul(importee) && env.locations.Some? && i < |b.plugins|
    requires InNamespace(Relative(WorkersOf(env), importer), b.plugins[i].name)
    requires forall j :: 0 <= j < i ==> !InNamespace(Relative(WorkersOf(env), importer), b.plugins[j].name)
    requires forall j :: 0 <= j < |b.plugins| && InNamespace(Relative(WorkersOf(env), importer), b.plugins[j].name)
               ==> b.plugins[j].name == b.plugins[i].name
    requires forall k :: k in env.resolutions ==> env.resolutions[k].location != importer
    ensures var (e1, a1) := ResolveId(b, env, importee, Some(importer));
            ResolveId(b, e1, importee, Some(importer)) == (e1, a1)
  {
    var W := WorkersOf(env);
    var rel := Relative(W, importer);
    var d0 := Walk(b, W, rel, importee, env.resolutions, b.plugins);
    if d0.Bind? {
      BindingIsReused(b, W, rel, importee, env.resolutions, b.plugins, i);
    }
  }

  /** When the loop records a new owner from inside the namespace of one plugin
      name, the same loop over the updated table answers with the recorded
      location: the first plugin of that name now finds its own row. */
  lemma BindingIsReused(b: Build, W: Path, rel: Option<seq<string>>, importee: string,
                        t0: Table, ps: seq<Plugin>, i: nat)
    requires i < |ps| && InNamespace(rel, ps[i].name)
    requires forall j :: 0 <= j < i ==> !InNamespace(rel, ps[j].name)
    requires forall j :: 0 <= j < |ps| && InNamespace(rel, ps[j].name) ==> ps[j].name == ps[i].name
    requires Walk(b, W, rel, importee, t0, ps).Bind?
    ensures var d0 := Walk(b, W, rel, importee, t0, ps);
            Walk(b, W, rel, importee, t0[importee := Resolution(Some(d0.owner), d0.location)], ps)
              == Answer(Some(d0.location))
  {
    var d0 := Walk(b, W, rel, importee, t0, ps);
    var s := FirstStop(b, W, rel, importee, t0, ps);
    assert Visit(b, W, rel, importee, t0, ps[s]).Bind?;
    assert InNamespace(rel, ps[s].name) && ps[s].name == d0.owner;
    assert s >= i;
    assert ps[s].name == ps[i].name;
    assert !NameHit(b, W, ps[i], importee) && ModuleFile(W, ps[i].name, importee) !in b.fs;
    var t1 := t0[importee := Resolution(Some(d0.owner), d0.location)];
    forall j | 0 <= j < i
      ensures Visit(b, W, rel, importee, t1, ps[j]).Skip?
    {
      assert Visit(b, W, rel, importee, t0, ps[j]).Skip?;
    }
    WalkPastSkips(b, W, rel, importee, t1, ps, i);
    assert ps[i..][0] == ps[i];
    assert Visit(b, W, rel, importee, t1, ps[i]) == Answer(Some(d0.location));
  }

  /** From outside every namespace, repeating a call returns the same answer
      and changes nothing, provided the importee's own row (if any) is not
      located at the importer. */
  lemma RepeatOutsideNamespaces(b: Build, env: Env, importee: string, importer: Path)
    requires !HasNul(importee) && env.locations.Some?
    requires forall j :: 0 <= j < |b.plugins| ==> !InNamespace(Relative(WorkersOf(env), importer), b.plugins[j].name)
    requires importee in env.resolutions ==> env.resolutions[importee].location != importer
    ensures var (e1, a1) := ResolveId(b, env, importee, Some(importer));
            ResolveId(b, e1, importee, Some(importer)) == (e1, a1)
  {
    var W := WorkersOf(env);
    var rel := Relative(W, importer);
    var t0 := env.resolutions;
    var (e1, a1) := ResolveId(b, env, importee, Some(importer));
    WalkIgnoresTable(b, W, rel, importee, t0, e1.resolutions, b.plugins);
    var d0 := Walk(b, W, rel, importee, t0, b.plugins);
    if d0.Skip? {
      var (t1, a) := Sideload(b.lookup, t0, importer, importee);
      if a.Some? {
        var k :| k in t0 && t0[k].location == importer;
        assert k != importee;
        assert t1[k] == t0[k];
        assert t1[importee := Resolution(None, a.value)] == t1;
      }
    }
  }

  /** A dependency X resolved from a plugin's root, living outside the staging
      directory, can itself import Y: Y resolves from X's own directory through
      the sideload pass and is recorded without an owner. */
  lemma TransitiveDependencyResolves(b: Build, env: Env, x: string, y: string, importer: Path, i: nat, lx: Path, ly: Path)
    requires !HasNul(x) && !HasNul(y) && Reaches(b, env, x, importer, i) && i < |b.plugins|
    requires !NameHit(b, WorkersOf(env), b.plugins[i], x)
    requires InNamespace(Relative(WorkersOf(env), importer), b.plugins[i].name)
    requires ModuleFile(WorkersOf(env), b.plugins[i].name, x) !in b.fs
    requires x !in env.resolutions
    requires b.lookup(x, b.plugins[i].root) == Some(lx)
    requires Relative(WorkersOf(env), lx).None?
    requires forall j :: 0 <= j < |b.plugins| ==> !NameHit(b, WorkersOf(env), b.plugins[j], y)
    requires b.lookup(y, Dirname(lx)) == Some(ly)
    ensures var (e1, a1) := ResolveId(b, env, x, Some(importer));
            && a1 == Resolved(lx)
            && var (e2, a2) := ResolveId(b, e1, y, Some(lx));
               a2 == Resolved(ly) && y in e2.resolutions && e2.resolutions[y] == Resolution(None, ly)
  {
    FirstLookupRecords(b, env, x, importer, i, lx);
    var e1 := ResolveId(b, env, x, Some(importer)).0;
    assert e1.resolutions[x].location == lx;
    SideloadWhenLoopPasses(b, e1, y, lx);
  }

  // ---------------------------------------------------------------------------
  // A whole build

  /** One call of the hook. */
  datatype Call = Call(importee: string, importer: Option<Path>)

  /** The state after a build's calls, in order. */
  function Run(b: Build, env: Env, calls: seq<Call>): Env
    decreases |calls|
  {
    if |calls| == 0 then env
    else Run(b, ResolveId(b, env, calls[0].importee, calls[0].importer).0, calls[1..])
  }

  /** Once established, the workspace is never recomputed for the rest of the build. */
  lemma {:induction false} WorkspaceFixed(b: Build, env: Env, calls: seq<Call>)
    requires env.locations.Some?
    ensures Run(b, env, calls).locations == env.locations
    decreases |calls|
  {
    if |calls| > 0 {
      WorkspaceFixed(b, ResolveId(b, env, calls[0].importee, calls[0].importer).0, calls[1..]);
    }
  }

  /** Ownership is sticky for a whole build: a row owned by `o` stays in the
      table and is never owned by anybody else; at most a sideload makes it owner-less. */
  lemma {:induction false} OwnerNeverRebound(b: Build, env: Env, calls: seq<Call>, k: string, o: string)
    requires k in env.resolutions && env.resolutions[k].owner in {Some(o), None}
    ensures k in Run(b, env, calls).resolutions
    ensures Run(b, env, calls).resolutions[k].owner in {Some(o), None}
    decreases |calls|
  {
    if |calls| > 0 {
      OwnerNeverRebound(b, ResolveId(b, env, calls[0].importee, calls[0].importer).0, calls[1..], k, o);
    }
  }

  /** The sideload loop as written, over the table's insertion order, gives the
      same result as the order-free definition: all candidate rows share the
      same location, the importer. */
  lemma {:induction false} SideloadOrderIrrelevant(lookup: Lookup, table: Table, order: seq<string>,
                                                   importer: Path, importee: string)
    requires forall j :: 0 <= j < |order| ==> order[j] in table
    requires forall k :: k in table ==> k in order
    ensures SideloadScan(lookup, table, order, importer, importee) == Sideload(lookup, table, importer, importee)
  {
    ScanFindsMatch(lookup, table, order, importer, importee);
  }

  lemma {:induction false} ScanFindsMatch(lookup: Lookup, table: Table, order: seq<string>,
                                          importer: Path, importee: string)
    ensures (exists j :: 0 <= j < |order| && order[j] in table && table[order[j]].location == importer)
            ==> SideloadScan(lookup, table, order, importer, importee)
                == match lookup(importee, Dirname(importer))
                   case Some(l) => (table[importee := Resolution(None, l)], Some(l))
                   case None => (table, None)
    ensures !(exists j :: 0 <= j < |order| && order[j] in table && table[order[j]].location == importer)
            ==> SideloadScan(lookup, table, order, importer, importee) == (table, None)
    decreases |order|
  {
    if |order| > 0 {
      ScanFindsMatch(lookup, table, order[1..], importer, importee);
      if (exists j :: 0 <= j < |order[1..]| && order[1..][j] in table && table[order[1..][j]].location == importer) {
        var j :| 0 <= j < |order[1..]| && order[1..][j] in table && table[order[1..][j]].location == importer;
        assert order[j + 1] == order[1..][j];
      }
      if (exists j :: 0 <= j < |order| && order[j] in table && table[order[j]].location == importer) {
        var j :| 0 <= j < |order| && order[j] in table && table[order[j]].location == importer;
        if j > 0 {
          assert order[1..][j - 1] == order[j];
        }
      }
    }
  }
}

=== FILE: session.dfy ===
/**
  The runtime worker session service. Each request boots a background worker
  on the bundled script, posts it the configuration, takes the first message
  back as the handshake carrying the session id, posts the request URL, and on
  the first reply unregisters, terminates the worker and settles the caller.

  Workers are abstract: the service observes only their listeners, the
  messages posted to them and whether they were terminated. Messages coming
  back from a worker are input events. Calls are sequential.
 */
module Session {

  import opened Wrappers

  /** The service configuration `{ location }`: the worker script's URL. */
  datatype Config = Config(location: string)

  /** What the service posts to a worker: `{ config }` at boot, `{ url }` per request. */
  datatype Message = Boot(config: Config) | Request(url: string)

  /** The data of a message a worker posts back; the service reads only `data.id`. */
  datatype Reply = Reply(id: Option<string>)

  /** The service's two message listeners: the handshake listener `launched`
      and the reply listener `receive`. */
  datatype Listener = Launched | Receive

  /** A worker as the service observes it. */
  datatype Worker = Worker(url: string, listeners: seq<Listener>, inbox: seq<Message>, alive: bool)

  type WorkerId = nat

  /** The `WorkerProxy` the handshake resolves to: the worker and the id it reported. */
  datatype Proxy = Proxy(worker: WorkerId, id: Option<string>)

  /** The operations of a worker object. */
  datatype Op = AddListener(l: Listener) | RemoveListener(l: Listener) | PostMessage(m: Message) | Terminate

  /** All occurrences of `l` removed. */
  function Without(ls: seq<Listener>, l: Listener): (r: seq<Listener>)
    ensures l !in r
    ensures forall x :: x in r <==> x in ls && x != l
    decreases |ls|
  {
    if |ls| == 0 then []
    else (if ls[0] == l then [] else [ls[0]]) + Without(ls[1..], l)
  }

  /** A worker operation: adding a listener already present does nothing, and
      a terminated worker receives no more messages. */
  function Perform(w: Worker, op: Op): Worker {
    match op
    case AddListener(l) => if l in w.listeners then w else w.(listeners := w.listeners + [l])
    case RemoveListener(l) => w.(listeners := Without(w.listeners, l))
    case PostMessage(m) => if w.alive then w.(inbox := w.inbox + [m]) else w
    case Terminate => w.(alive := false)
  }

  /** The `WorkerProxy` methods. */
  datatype ProxyCall = On(l: Listener) | Off(l: Listener) | Send(m: Message) | Kill

  /** The worker operation each proxy method stands for. */
  function Underlying(c: ProxyCall): Op {
    match c
    case On(l) => AddListener(l)
    case Off(l) => RemoveListener(l)
    case Send(m) => PostMessage(m)
    case Kill => Terminate
  }

  /** A proxy method call: the matching operation on the proxy's own worker,
      and nothing else. */
  function Forward(workers: seq<Worker>, p: Proxy, c: ProxyCall): (r: seq<Worker>)
    requires p.worker < |workers|
    ensures |r| == |workers|
    ensures r[p.worker] == Perform(workers[p.worker], Underlying(c))
    ensures forall i :: 0 <= i < |workers| && i != p.worker ==> r[i] == workers[i]
  {
    workers[p.worker := Perform(workers[p.worker], Underlying(c))]
  }

  /** Removing a listener that was just added restores the worker. */
  lemma OffUndoesOn(workers: seq<Worker>, p: Proxy, l: Listener)
    requires p.worker < |workers| && l !in workers[p.worker].listeners
    ensures Forward(Forward(workers, p, On(l)), p, Off(l)) == workers
  {
    var ls := workers[p.worker].listeners;
    WithoutAppended(ls, l);
    assert Forward(Forward(workers, p, On(l)), p, Off(l))[p.worker] == workers[p.worker];
  }

  lemma {:induction false} WithoutAppended(ls: seq<Listener>, l: Listener)
    requires l !in ls
    ensures Without(ls + [l], l) == ls
    decreases |ls|
  {
    if |ls| == 0 {
      assert [l][1..] == [];
    } else {
      assert (ls + [l])[1..] == ls[1..] + [l];
      WithoutAppended(ls[1..], l);
      assert ls == [ls[0]] + ls[1..];
    }
  }

  /** Where the service is in its one request. */
  datatype Stage =
    | Idle                                  // no request in flight
    | Handshaking(worker: WorkerId, url: string)   // booted, waiting for the handshake
    | Awaiting(proxy: Proxy)                // request posted, waiting for the reply

  /** The service: its configuration, the cached handle, every worker it ever
      created (a worker's id is its position), where the current request is,
      and how many requests have been settled. */
  datatype Service = Service(config: Config, cached: Option<Proxy>, workers: seq<Worker>,
                             stage: Stage, settled: nat)

  /** A fresh service. */
  function Start(config: Config): Service {
    Service(config, None, [], Idle, 0)
  }

  /** The listeners are where the stage says: none while idle, the handshake
      listener on the booting worker, the reply listener on the requested one. */
  predicate Valid(s: Service) {
    && (s.cached.Some? ==> s.cached.value.worker < |s.workers|)
    && match s.stage
       case Idle =>
         forall i :: 0 <= i < |s.workers| ==> s.workers[i].listeners == []
       case Handshaking(w, _) =>
         w < |s.workers| && forall i :: 0 <= i < |s.workers| ==> s.workers[i].listeners == (if i == w then [Launched] else [])
       case Awaiting(p) =>
         p.worker < |s.workers| && forall i :: 0 <= i < |s.workers| ==> s.workers[i].listeners == (if i == p.worker then [Receive] else [])
  }

  /** `initialize()`: create a worker on the configured URL, listen for the
      handshake, post `{ config }`. */
  function Initialize(s: Service): (r: (Service, WorkerId))
    ensures r.1 == |s.workers| && |r.0.workers| == |s.workers| + 1
    ensures r.0 == s.(workers := s.workers + [r.0.workers[r.1]])
    ensures r.0.workers[r.1] == Worker(s.config.location, [Launched], [Boot(s.config)], true)
  {
    var w := Worker(s.config.location, [], [], true);
    var w := Perform(w, AddListener(Launched));
    var w := Perform(w, PostMessage(Boot(s.config)));
    (s.(workers := s.workers + [w]), |s.workers|)
  }

  /** The part of `chunk(url)` after a worker handle is at hand: cache it if
      nothing is cached, listen for the reply, post `{ url }`, clear the cache. */
  function Dispatch(s: Service, p: Proxy, url: string): (r: Service)
    requires p.worker < |s.workers|
    ensures r.cached.None? && r.stage == Awaiting(p) && r.settled == s.settled
    ensures |r.workers| == |s.workers|
    ensures r.workers[p.worker] == Perform(Perform(s.workers[p.worker], AddListener(Receive)), PostMessage(Request(url)))
    ensures forall i :: 0 <= i < |s.workers| && i != p.worker ==> r.workers[i] == s.workers[i]
  {
    var s1 := if s.cached.None? then s.(cached := Some(p)) else s;
    var s2 := s1.(workers := Forward(Forward(s1.workers, p, On(Receive)), p, Send(Request(url))));
    s2.(cached := None, stage := Awaiting(p))
  }

  /** `chunk(url)` is called: reuse the cached handle if there is one, otherwise boot a worker. */
  function Chunk(s: Service, url: string): (r: Service)
    requires Valid(s) && s.stage.Idle?
    ensures Valid(r) && r.cached.None? && r.settled == s.settled
    ensures s.cached.None? ==>
              && |r.workers| == |s.workers| + 1
              && r.workers[..|s.workers|] == s.workers
              && r.workers[|s.workers|] == Worker(s.config.location, [Launched], [Boot(s.config)], true)
              && r.stage == Handshaking(|s.workers|, url)
    ensures s.cached.Some? ==> |r.workers| == |s.workers| && r.stage == Awaiting(s.cached.value)
  {
    if s.cached.Some? then Dispatch(s, s.cached.value, url)
    else
      var (s1, w) := Initialize(s);
      assert s1.workers[..|s.workers|] == s.workers;
      s1.(stage := Handshaking(w, url))
  }

  /** Worker `w` posts a message with data `reply`; the listeners registered on
      it at that moment run. The handshake listener and the reply listener are
      `Handshake` and `Settle`; a worker with no listener ignores the message. */
  function Deliver(s: Service, w: WorkerId, reply: Reply): (r: Service)
    requires Valid(s)
    ensures Valid(r) && |r.workers| == |s.workers|
    ensures s.cached.None? ==> r.cached.None?
    ensures s.stage.Handshaking? && w == s.stage.worker && s.workers[w].alive ==>
              && r.stage == Awaiting(Proxy(w, reply.id))
              && r.workers[w] == s.workers[w].(listeners := [Receive], inbox := s.workers[w].inbox + [Request(s.stage.url)])
              && r.settled == s.settled
    ensures s.stage.Awaiting? && w == s.stage.proxy.worker && s.workers[w].alive ==>
              && r.stage.Idle?
              && r.workers[w] == s.workers[w].(listeners := [], alive := false)
              && r.settled == s.settled + 1
    ensures forall i :: 0 <= i < |s.workers| && i != w ==> r.workers[i] == s.workers[i]
    ensures (s.stage.Idle? || CurrentWorker(s) != Some(w) || w >= |s.workers| || !s.workers[w].alive) ==> r == s
  {
    if w >= |s.workers| || !s.workers[w].alive || s.workers[w].listeners == [] then s
    else if s.workers[w].listeners[0] == Launched then
      assert s.stage.Handshaking? && s.stage.worker == w;
      Handshake(s, reply)
    else
      assert s.stage.Awaiting? && s.stage.proxy.worker == w;
      Settle(s)
  }

  /** The handshake listener: it removes itself and resolves the handle with
      the reported id; `chunk` then continues with that handle. */
  function Handshake(s: Service, reply: Reply): (r: Service)
    requires Valid(s) && s.stage.Handshaking? && s.workers[s.stage.worker].alive
    ensures var w := s.stage.worker;
            && Valid(r) && |r.workers| == |s.workers| && r.cached.None? && r.settled == s.settled
            && r.stage == Awaiting(Proxy(w, reply.id))
            && r.workers[w] == s.workers[w].(listeners := [Receive], inbox := s.workers[w].inbox + [Request(s.stage.url)])
            && forall i :: 0 <= i < |s.workers| && i != w ==> r.workers[i] == s.workers[i]
  {
    var w := s.stage.worker;
    assert Without([Launched], Launched) == [];
    var s1 := s.(workers := s.workers[w := Perform(s.workers[w], RemoveListener(Launched))]);
    Dispatch(s1, Proxy(w, reply.id), s.stage.url)
  }

  /** The reply listener: it removes itself, terminates the worker and settles
      the request. */
  function Settle(s: Service): (r: Service)
    requires Valid(s) && s.stage.Awaiting?
    ensures var w := s.stage.proxy.worker;
            && Valid(r) && |r.workers| == |s.workers| && r.cached == s.cached
            && r.stage.Idle? && r.settled == s.settled + 1
            && r.workers[w] == s.workers[w].(listeners := [], alive := false)
            && forall i :: 0 <= i < |s.workers| && i != w ==> r.workers[i] == s.workers[i]
  {
    var p := s.stage.proxy;
    assert Without([Receive], Receive) == [];
    var ws := Forward(Forward(s.workers, p, Off(Receive)), p, Kill);
    s.(workers := ws, stage := Idle, settled := s.settled + 1)
  }

  /** The worker the current request is bound to; None when idle. */
  function CurrentWorker(s: Service): Option<WorkerId> {
    match s.stage
    case Idle => None
    case Handshaking(w, _) => Some(w)
    case Awaiting(p) => Some(p.worker)
  }

  /** Input events: a call of `chunk(url)`, or a message posted by a worker. */
  datatype Event = Call(url: string) | Message(worker: WorkerId, reply: Reply)

  /** One event; None for a call while another request is in flight, which is
      concurrency and outside this model. */
  function Step(s: Service, e: Event): (r: Option<Service>)
    requires Valid(s)
    ensures r.Some? ==> Valid(r.value)
  {
    match e
    case Call(url) => if s.stage.Idle? then Some(Chunk(s, url)) else None
    case Message(w, reply) => Some(Deliver(s, w, reply))
  }

  /** A sequence of events from state `s`. */
  function Run(s: Service, events: seq<Event>): (r: Option<Service>)
    requires Valid(s)
    ensures r.Some? ==> Valid(r.value)
    decreases |events|
  {
    if |events| == 0 then Some(s)
    else match Step(s, events[0])
      case None => None
      case Some(s') => Run(s', events[1..])
  }
}

=== FILE: session_props.dfy ===
/** Properties of the worker session service over sequences of events. */
module SessionProps {

  import opened Session

  /** A worker as `initialize` leaves it: on the configured script, with the
      configuration as its first message. */
  predicate Booted(s: Service, w: Worker) {
    w.url == s.config.location && |w.inbox| >= 1 && w.inbox[0] == Boot(s.config)
  }

  /** A worker that has served exactly one request and has been terminated. */
  predicate Served(s: Service, w: Worker) {
    Booted(s, w) && |w.inbox| == 2 && w.inbox[1].Request? && !w.alive && w.listeners == []
  }

  /** What holds of every service reached from `Start` by sequential calls:
      nothing stays cached, only the newest worker can be live, every older
      worker served exactly one request and was terminated, and every
      terminated worker counts as one settled request. */
  predicate Inv(s: Service) {
    && Valid(s) && s.cached.None?
    && match s.stage
       case Idle =>
         && (forall i :: 0 <= i < |s.workers| ==> Served(s, s.workers[i]))
         && s.settled == |s.workers|
       case Handshaking(w, _) =>
         && w == |s.workers| - 1
         && s.workers[w] == Worker(s.config.location, [Launched], [Boot(s.config)], true)
         && (forall i :: 0 <= i < w ==> Served(s, s.workers[i]))
         && s.settled == w
       case Awaiting(p) =>
         && p.worker == |s.workers| - 1
         && Booted(s, s.workers[p.worker]) && s.workers[p.worker].alive
         && |s.workers[p.worker].inbox| == 2 && s.workers[p.worker].inbox[1].Request?
         && (forall i :: 0 <= i < p.worker ==> Served(s, s.workers[i]))
         && s.settled == p.worker
  }

  lemma StartInv(config: Config)
    ensures Inv(Start(config))
  {
  }

  /** The number of calls in a sequence of events. */
  function Calls(events: seq<Event>): nat
    decreases |events|
  {
    if |events| == 0 then 0 else (if events[0].Call? then 1 else 0) + Calls(events[1..])
  }

  /** One event keeps the invariant, and exactly a call adds a worker. */
  lemma StepKeepsInv(s: Service, e: Event)
    requires Inv(s) && Step(s, e).Some?
    ensures Inv(Step(s, e).value)
    ensures |Step(s, e).value.workers| == |s.workers| + (if e.Call? then 1 else 0)
  {
    match e
    case Call(url) =>
      CallKeepsInv(s, url);
    case Message(w, reply) =>
      if w >= |s.workers| || !s.workers[w].alive || s.workers[w].listeners == [] {
        assert Deliver(s, w, reply) == s;
      } else if s.workers[w].listeners[0] == Launched {
        assert Deliver(s, w, reply) == Handshake(s, reply);
        HandshakeKeepsInv(s, reply);
      } else {
        assert Deliver(s, w, reply) == Settle(s);
        SettleKeepsInv(s);
      }
  }

  /** A call from an idle service keeps the invariant and adds one worker. */
  lemma CallKeepsInv(s: Service, url: string)
    requires Inv(s) && s.stage.Idle?
    ensures Inv(Chunk(s, url)) && |Chunk(s, url).workers| == |s.workers| + 1
  {
    var t := Chunk(s, url);
    forall i | 0 <= i < |s.workers| ensures t.workers[i] == s.workers[i] {
      assert t.workers[..|s.workers|][i] == t.workers[i];
    }
  }

  /** The handshake keeps the invariant. */
  lemma HandshakeKeepsInv(s: Service, reply: Reply)
    requires Inv(s) && s.stage.Handshaking?
    ensures Inv(Handshake(s, reply))
  {
    var t := Handshake(s, reply);
    assert t.workers[s.stage.worker].inbox == [Boot(s.config), Request(s.stage.url)];
  }

  /** Settling keeps the invariant. */
  lemma SettleKeepsInv(s: Service)
    requires Inv(s) && s.stage.Awaiting?
    ensures Inv(Settle(s))
  {
    var t := Settle(s);
    assert Served(s, t.workers[s.stage.proxy.worker]);
  }

  /** Any sequence of events keeps the invariant; each call boots exactly one
      new worker, so no two calls ever share a worker. */
  lemma {:induction false} RunKeepsInv(s: Service, events: seq<Event>)
    requires Inv(s) && Run(s, events).Some?
    ensures Inv(Run(s, events).value)
    ensures |Run(s, events).value.workers| == |s.workers| + Calls(events)
    decreases |events|
  {
    if |events| > 0 {
      StepKeepsInv(s, events[0]);
      RunKeepsInv(Step(s, events[0]).value, events[1..]);
    }
  }

  /** From a fresh service: as many workers as calls, and when no request is
      in flight every call has been settled and its worker terminated. */
  lemma OneWorkerPerCall(config: Config, events: seq<Event>)
    requires Run(Start(config), events).Some?
    ensures |Run(Start(config), events).value.workers| == Calls(events)
    ensures var t := Run(Start(config), events).value;
            t.stage.Idle? ==> t.settled == Calls(events) && forall i :: 0 <= i < |t.workers| ==> !t.workers[i].alive
  {
    StartInv(config);
    RunKeepsInv(Start(config), events);
  }

  /** One request from an idle service: the call boots worker `n`, the
      handshake makes the service post the URL to it, the reply terminates it
      and settles the call, and a later message from it changes nothing. */
  lemma {:induction false} RequestLifecycle(s: Service, url: string, hello: Reply, answer: Reply, late: Reply)
    requires Inv(s) && s.stage.Idle?
    ensures var n := |s.workers|;
            var events := [Call(url), Message(n, hello), Message(n, answer), Message(n, late)];
            && Run(s, events).Some?
            && var t := Run(s, events).value;
            && t.stage.Idle? && t.settled == s.settled + 1 && t.cached.None?
            && t.workers == s.workers + [Worker(s.config.location, [], [Boot(s.config), Request(url)], false)]
  {
    var n := |s.workers|;
    var s1 := Chunk(s, url);
    var s2 := Handshake(s1, hello);
    var s3 := Settle(s2);
    LifecycleState(s, url, hello);
    assert Deliver(s1, n, hello) == s2;
    assert Deliver(s2, n, answer) == s3;
    assert Deliver(s3, n, late) == s3;
    var events := [Call(url), Message(n, hello), Message(n, answer), Message(n, late)];
    assert events[1..] == [Message(n, hello), Message(n, answer), Message(n, late)];
    assert events[1..][1..] == [Message(n, answer), Message(n, late)];
    assert events[1..][1..][1..] == [Message(n, late)];
    assert Run(s, events) == Run(s1, events[1..]);
    assert Run(s1, events[1..]) == Run(s2, events[1..][1..]);
    assert Run(s2, events[1..][1..]) == Run(s3, events[1..][1..][1..]);
    assert Run(s3, [Message(n, late)]) == Run(s3, []);
  }

  /** The states a request passes through: booting, handshake, settling. */
  lemma LifecycleState(s: Service, url: string, hello: Reply)
    requires Inv(s) && s.stage.Idle?
    ensures var s1 := Chunk(s, url);
            && s1.stage == Handshaking(|s.workers|, url) && s1.workers[|s.workers|].alive
            && var s2 := Handshake(s1, hello);
            && s2.stage == Awaiting(Proxy(|s.workers|, hello.id))
            && var s3 := Settle(s2);
            && s3.stage.Idle? && s3.settled == s.settled + 1 && s3.cached.None?
            && s3.workers == s.workers + [Worker(s.config.location, [], [Boot(s.config), Request(url)], false)]
  {
    var n := |s.workers|;
    var s1 := Chunk(s, url);
    var s2 := Handshake(s1, hello);
    var s3 := Settle(s2);
    assert s1.workers == s.workers + [s1.workers[n]] by {
      assert s1.workers[..n] == s.workers;
      assert s1.workers == s1.workers[..n] + [s1.workers[n]];
    }
    assert s3.workers[n] == Worker(s.config.location, [], [Boot(s.config), Request(url)], false);
    assert |s3.workers| == n + 1;
    assert forall i :: 0 <= i < n ==> s3.workers[i] == s.workers[i];
  }
}

=== FILE: strings.dfy ===
/**
  Splitting a string at a one-character separator and joining pieces back
  together, as JavaScript's `String.prototype.split` and `Array.prototype.join`
  do. Paths are split at '/', the synthesized entry file at '\n'.
 */
module Strings {

  /** The pieces of `s` between occurrences of `sep`, empty pieces kept. */
  function Split(s: string, sep: char): (parts: seq<string>)
    ensures |parts| >= 1
    ensures forall i :: 0 <= i < |parts| ==> sep !in parts[i]
    decreases |s|
  {
    if |s| == 0 then [""]
    else
      var rest := Split(s[1..], sep);
      if s[0] == sep then [""] + rest
      else [[s[0]] + rest[0]] + rest[1..]
  }

  /** The pieces concatenated with `sep` between neighbours. */
  function Join(parts: seq<string>, sep: char): string
  {
    if |parts| == 0 then ""
    else if |parts| == 1 then parts[0]
    else parts[0] + [sep] + Join(parts[1..], sep)
  }

  /** Concatenation is associative; a step the solver finds expensive on its own. */
  lemma Assoc<T>(a: seq<T>, b: seq<T>, c: seq<T>)
    ensures a + (b + c) == a + b + c
  {
  }

  /** Splitting distributes over a separator occurrence. */
  lemma {:induction false} SplitAround(s: string, sep: char, t: string)
    ensures Split(s + [sep] + t, sep) == Split(s, sep) + Split(t, sep)
    decreases |s|
  {
    if |s| == 0 {
      assert s + [sep] + t == [sep] + t;
      assert ([sep] + t)[1..] == t;
    } else {
      var u := s + [sep] + t;
      assert u[0] == s[0];
      assert u[1..] == s[1..] + [sep] + t;
      SplitAround(s[1..], sep, t);
      var a, b := Split(s[1..], sep), Split(t, sep);
      if s[0] == sep {
        Assoc([""], a, b);
      } else {
        assert (a + b)[0] == a[0];
        assert (a + b)[1..] == a[1..] + b;
        Assoc([[s[0]] + a[0]], a[1..], b);
      }
    }
  }

  /** Joining the pieces of a split gives back the original string. */
  lemma {:induction false} JoinSplit(s: string, sep: char)
    ensures Join(Split(s, sep), sep) == s
    decreases |s|
  {
    if |s| > 0 {
      var rest := Split(s[1..], sep);
      JoinSplit(s[1..], sep);
      if s[0] == sep {
        assert ([""] + rest)[1..] == rest;
        assert s == [sep] + s[1..];
      } else {
        var parts := [[s[0]] + rest[0]] + rest[1..];
        if |rest| == 1 {
          assert s == [s[0]] + s[1..];
        } else {
          assert parts[1..] == rest[1..];
          assert Join(rest, sep) == rest[0] + [sep] + Join(rest[1..], sep);
          assert s == [s[0]] + s[1..];
        }
      }
    }
  }

  /** Splitting the join of separator-free pieces gives back the pieces. */
  lemma {:induction false} SplitJoin(parts: seq<string>, sep: char)
    requires |parts| >= 1
    requires forall i :: 0 <= i < |parts| ==> sep !in parts[i]
    ensures Split(Join(parts, sep), sep) == parts
    decreases |parts|
  {
    SplitFree(parts[0], sep);
    if |parts| > 1 {
      var rest := Join(parts[1..], sep);
      SplitJoin(parts[1..], sep);
      assert Join(parts, sep) == parts[0] + [sep] + rest;
      SplitAround(parts[0], sep, rest);
      assert Split(Join(parts, sep), sep) == [parts[0]] + parts[1..];
      assert parts == [parts[0]] + parts[1..];
    }
  }

  /** A string without the separator splits into itself. */
  lemma {:induction false} SplitFree(s: string, sep: char)
    requires sep !in s
    ensures Split(s, sep) == [s]
    decreases |s|
  {
    if |s| > 0 {
      SplitFree(s[1..], sep);
      assert s == [s[0]] + s[1..];
    }
  }
}

=== FILE: wrappers.dfy ===
/** The optional-value datatype used where the source has `null` or `undefined`. */
module Wrappers {

  datatype Option<+T> = None | Some(value: T)
}
